=== FILE: README.md ===
# Configuration trees of the `etc` package

This project models the configuration core of the tideland `etc` package
(vendored in `vendor/github.com/tideland/golib/etc/etc.go`) in Dafny and proves
properties of the model.

A configuration owns a key/value tree whose root key is `etc`. Users address
nodes with slash-separated path text, which is normalised into a rooted,
lower-case segment sequence (`makeFullPath`). On that basis:

- `HasPath` checks that a node exists. `ValueAsString` reads a node's string
  and falls back to a default; a missing value turns into an invalid-path
  error that names the path (`pathToString`).
- Post-processing resolves, once, the first bracketed template in every
  matching leaf. The source is a `$NAME` environment variable or a path. The
  default comes after a `||`, or is the whole bracketed text when there is no
  `||`. Every occurrence of the matched text is then replaced.
- `Split` copies the subtree at a path into a new configuration whose top node
  is renamed `etc`. `Dump` flattens the values into a map keyed by the path
  below the root. `Apply` copies the configuration and writes each override
  at its normalised path.
- `Write` turns the depth-first traversal into nested tag events for a node
  builder.

Files and modules:

- `paths.dfy` (`Paths`): splitting and joining on `/`, normalisation, and its
  laws.
- `tree.dfy` (`KeyValueTree`): the external tree as a class, its shape
  invariant, and the depth-first traversal it offers.
- `access.dfy` (`Access`): `HasPath`, `valueAt`, `value.Value` and
  `ValueAsString`.
- `template.dfy` (`Template`): the bracket pattern, template splitting,
  substitution, Go's `strings.Replace`, and the whole pass as a function.
- `events.dfy` (`NodeEvents`): the node builder as a list of events.
- `etc.dfy` (`Configuration`): the `Etc` class with `Split`, `Dump`, `Apply`,
  `Write` and `PostProcess`, the functions that specify them, and the lemmas
  about them.
- `outcomes.dfy` (`Outcomes`): option and result types, and the invalid-path
  error.

The bracket pattern is written `\[.+(||.+)\]`. The `||` in its group is an
alternation of empty branches, not a literal `||`, so the pattern accepts
exactly what `\[.+\]` accepts. The model's matcher follows that: the leftmost
`[` that has a `]` at least two characters later on the same line, matched to
the last such `]` (`.+` is greedy and does not cross a newline). As a
consequence, two templates on one line form a single match.

## Model

| member | source | states |
|---|---|---|
| Paths.MakeFullPath | vendor/github.com/tideland/golib/etc/etc.go:385-393 | the full path starts with the root key `etc`; every later segment is non-empty, lower-case and free of `/`, so the path is valid |
| Paths.Clean | vendor/github.com/tideland/golib/etc/etc.go:386-391 | the mapper keeps at most as many parts as it is given, each non-empty and lower-case; for parts without `/` the result is a valid path |
| Paths.CleanOne | vendor/github.com/tideland/golib/etc/etc.go:387-390 | a single part is dropped when it is empty and lower-cased otherwise |
| Paths.CleanConcat | vendor/github.com/tideland/golib/etc/etc.go:386-391 | the mapper works part by part: cleaning `a + b` is cleaning `a` followed by cleaning `b`, so with CleanOne every non-empty part is kept, lower-cased, in order |
| Paths.SplitSlash | vendor/github.com/tideland/golib/etc/etc.go:386 | splitting on `/` yields at least one part and no part contains `/` |
| Paths.SplitConcat | vendor/github.com/tideland/golib/etc/etc.go:386 | splitting `a + "/" + b` is splitting `a` followed by splitting `b` |
| Paths.SplitJoin | vendor/github.com/tideland/golib/etc/etc.go:397 | splitting undoes joining for non-empty part lists without `/` |
| Paths.DoubleSlashIgnored | vendor/github.com/tideland/golib/etc/etc.go:386-391 | an empty segment between two slashes does not change the full path |
| Paths.LeadingSlashIgnored | vendor/github.com/tideland/golib/etc/etc.go:386-391 | a leading slash does not change the full path |
| Paths.TrailingSlashIgnored | vendor/github.com/tideland/golib/etc/etc.go:386-391 | a trailing slash does not change the full path |
| Paths.CaseIgnored | vendor/github.com/tideland/golib/etc/etc.go:390 | lower-casing the path text first does not change the full path |
| Paths.SameNode | vendor/github.com/tideland/golib/etc/etc.go:385-393 | `"A//b/"`, `"/a/b"` and `"a/b"` all normalise to `["etc", "a", "b"]` |
| Paths.FullPathConcat | vendor/github.com/tideland/golib/etc/etc.go:385-393 | the full path of `path + "/" + sub` is the full path of `path` followed by the parts of `sub` |
| Paths.PathToString | vendor/github.com/tideland/golib/etc/etc.go:396-398 | the rendered path starts with `/`; PathToStringRoundTrip and JoinInjective say what it renders |
| Paths.PathToStringRoundTrip | vendor/github.com/tideland/golib/etc/etc.go:396-398 | normalising the rendered text of a valid segment sequence gives the sequence back below the root |
| Paths.JoinInjective | vendor/github.com/tideland/golib/etc/etc.go:397 | distinct non-empty valid segment sequences join to distinct texts |
| Access.HasPath | vendor/github.com/tideland/golib/etc/etc.go:174-178 | whether the full path of the text is a node (a definition; HasPathIgnoresSpelling states its spelling independence) |
| Access.HasPathIgnoresSpelling | vendor/github.com/tideland/golib/etc/etc.go:174-178 | `HasPath` gives the same answer for `"A//b/"`, `"/a/b"` and `"a/b"`: whether `["etc", "a", "b"]` is a node |
| Access.Value.Get | vendor/github.com/tideland/golib/etc/etc.go:55-61 | reading succeeds exactly when a string is stored, and then gives that string; otherwise it fails with an invalid-path error naming the path as `pathToString` renders it |
| Access.ValueAt | vendor/github.com/tideland/golib/etc/etc.go:318-322 | the looked-up value records the full path; reading it succeeds exactly when the normalised path holds a value, and then gives that value |
| Access.MissingValueNamesPath | vendor/github.com/tideland/golib/etc/etc.go:55-61 | reading a missing value fails with an invalid-path error naming the full path as `/etc/...` |
| Access.AsString | vendor/github.com/tideland/golib/etc/etc.go:183 | the defaulter gives the stored string when there is one and the default otherwise |
| Access.ValueAsString | vendor/github.com/tideland/golib/etc/etc.go:181-184 | the result is the default when the normalised path holds no value, and the stored string otherwise |
| Template.Match | vendor/github.com/tideland/golib/etc/etc.go:327-338 | a reported span is bracketed, on one line, leftmost, and ends at the last possible `]`; no span is reported exactly when the pattern matches nowhere |
| Template.SpanText | vendor/github.com/tideland/golib/etc/etc.go:338 | the matched text has at least three characters, starts with `[`, ends with `]` and holds no newline |
| Template.SplitTemplate | vendor/github.com/tideland/golib/etc/etc.go:340-344 | without `\|\|` in the inner text the source is the inner text and the default the whole matched text; otherwise the text is `[` source `\|\|` default `]` and the source holds no `\|\|`, so the cut is at the first `\|\|` |
| Template.SplitExample | vendor/github.com/tideland/golib/etc/etc.go:340-344 | `"[a\|\|\|b]"` is cut into the source `"a"` and the default `"\|b"` |
| Template.Parse | vendor/github.com/tideland/golib/etc/etc.go:338-344 | a template exists exactly when the pattern matches; its text is the match, bracketed and on one line, and its source and default are the SplitTemplate cut of that text |
| Template.Substitute | vendor/github.com/tideland/golib/etc/etc.go:346-355 | a `$NAME` source gives the variable's value when it is set and the default otherwise; any other source gives the string at that path, with the default |
| Template.ReplaceAll | vendor/github.com/tideland/golib/etc/etc.go:356 | Go's `strings.Replace` with no limit, left to right without overlaps (a definition; ReplaceAbsent, ReplaceBySelf, ReplaceClears and ReplaceExample state its behaviour) |
| Template.ReplaceAbsent | vendor/github.com/tideland/golib/etc/etc.go:356 | replacing a text that does not occur changes nothing |
| Template.ReplaceBySelf | vendor/github.com/tideland/golib/etc/etc.go:356 | replacing a text by itself changes nothing |
| Template.ReplaceDropsFirst | vendor/github.com/tideland/golib/etc/etc.go:356 | when each occurrence of the text's first character starts a copy of the text, and the substitute lacks that character, the result lacks it too |
| Template.ReplaceClears | vendor/github.com/tideland/golib/etc/etc.go:356 | under the same conditions no copy of the text remains |
| Template.ResolveLeaf | vendor/github.com/tideland/golib/etc/etc.go:338-356 | a leaf the pattern does not match is returned as it is; a matching one is specified through Parse, Substitute and ReplaceAll |
| Template.ResolveAll | vendor/github.com/tideland/golib/etc/etc.go:333-361 | the pass keeps the set of nodes; ResolveAllKeepsOthers, ResolveAllFirst and ResolveAllAt state what it does to the values |
| Template.ResolveAllSplit | vendor/github.com/tideland/golib/etc/etc.go:333-361 | the pass over two lists of matches in a row is the pass over the first, then the pass over the second on the values it leaves |
| Template.ResolveAllAt | vendor/github.com/tideland/golib/etc/etc.go:333-361 | with each leaf matched once, the n-th matched leaf is resolved against the values the first n resolutions left, and keeps that result to the end |
| Template.UnresolvedUnchanged | vendor/github.com/tideland/golib/etc/etc.go:340-356 | a template without `\|\|` whose variable is unset, or whose path holds no value, leaves the leaf as it was |
| Template.CopyMayRemain | vendor/github.com/tideland/golib/etc/etc.go:338-356 | in the leaf `"[x]\n[[x]]"`, with node `x` holding `"x"`, resolution gives `"x\n[x]"`, which still contains the matched text and still matches |
| Template.ResolveAllKeepsOthers | vendor/github.com/tideland/golib/etc/etc.go:329-361 | leaves that are not among the matches keep their values |
| Template.ResolveAllFirst | vendor/github.com/tideland/golib/etc/etc.go:333-361 | the first matched leaf is resolved against the values as they were before the pass |
| KeyValueTree.Created | vendor/github.com/tideland/golib/etc/etc.go:259 | creating the nodes along a path keeps every existing value, adds the missing prefixes and gives each of them the empty string |
| KeyValueTree.Tree.constructor | vendor/github.com/tideland/golib/etc/etc.go:220 | a tree holding only its root node, whose value is the empty string |
| KeyValueTree.Tree.Copy | vendor/github.com/tideland/golib/etc/etc.go:255 | a fresh, well-formed tree with the same root, nodes and values |
| KeyValueTree.Tree.CopyAt | vendor/github.com/tideland/golib/etc/etc.go:223 | a fresh, well-formed tree holding the subtree at the node, its root keeping the node's key |
| KeyValueTree.Tree.SetRootKey | vendor/github.com/tideland/golib/etc/etc.go:227 | the root is renamed, every path is re-rooted, and the tree stays well-formed |
| KeyValueTree.Tree.CreateWithValue | vendor/github.com/tideland/golib/etc/etc.go:259 | the path's missing ancestors are created holding the empty string and the path gets the value; nothing else changes |
| KeyValueTree.Tree.SetValue | vendor/github.com/tideland/golib/etc/etc.go:357 | an existing node gets the value; no node is created |
| KeyValueTree.SubtreeWellFormed | vendor/github.com/tideland/golib/etc/etc.go:223 | the subtree at a node is a well-formed tree rooted at that node's key, every node valued |
| KeyValueTree.RekeyWellFormed | vendor/github.com/tideland/golib/etc/etc.go:227 | renaming the root to a valid key keeps the tree well-formed |
| KeyValueTree.CreateWellFormed | vendor/github.com/tideland/golib/etc/etc.go:259 | creating a valid path with its prefixes, the new ones holding the empty string, keeps the tree well-formed |
| Configuration.Etc.Split | vendor/github.com/tideland/golib/etc/etc.go:217-232 | a missing path gives a fresh configuration holding only the root node `etc` with the empty string; otherwise the subtree at the path, re-rooted at `etc` |
| Configuration.SplitHasPath | vendor/github.com/tideland/golib/etc/etc.go:217-231 | after splitting at an existing path, `sub` addresses a node exactly when `path/sub` did in the original |
| Configuration.SplitValueAsString | vendor/github.com/tideland/golib/etc/etc.go:217-231 | after splitting at an existing path, the string at `sub` equals the string at `path/sub` in the original, with the same default |
| Configuration.DumpKey | vendor/github.com/tideland/golib/etc/etc.go:242 | the Dump key of a node is its path below the root joined with `/` (a definition; DumpKeyInjective and DumpKeyAddresses state its properties) |
| Configuration.Etc.Dump | vendor/github.com/tideland/golib/etc/etc.go:235-250 | every node below the root appears under its Dump key with its value; the root is not included and there are no other entries |
| Configuration.DumpStep | vendor/github.com/tideland/golib/etc/etc.go:237-246 | one callback step keeps the entries exact for the nodes visited so far, and the root adds none |
| Configuration.DumpDone | vendor/github.com/tideland/golib/etc/etc.go:237-249 | once every node is visited, the entries are the Dump of the values |
| Configuration.DumpKeyInjective | vendor/github.com/tideland/golib/etc/etc.go:242 | distinct nodes below the same root get distinct Dump keys |
| Configuration.DumpKeyAddresses | vendor/github.com/tideland/golib/etc/etc.go:242 | a Dump key normalises back to the node it was made from |
| Configuration.DumpReachedPresent | vendor/github.com/tideland/golib/etc/etc.go:235-264 | every node on the path of a key of the configuration's own Dump already exists |
| Configuration.ApplyDumpUnchanged | vendor/github.com/tideland/golib/etc/etc.go:235-264 | applying a configuration's own Dump to it changes no node and no value |
| Configuration.Etc.Apply | vendor/github.com/tideland/golib/etc/etc.go:253-265 | the receiver is untouched; the fresh result holds the overrides written in the order the keys were taken |
| Configuration.Etc.Override | vendor/github.com/tideland/golib/etc/etc.go:257-263 | one loop step: writing the next key's override extends the overlay by that key |
| Configuration.Overlay | vendor/github.com/tideland/golib/etc/etc.go:257-263 | the values after writing the overrides in a given order (a definition; OverlayApplied, OverlayAppliesAll and OverlayLastWins state its properties) |
| Configuration.OverlayAppliesAll | vendor/github.com/tideland/golib/etc/etc.go:253-264 | after Apply, a node exists exactly when it did or lies on an override's normalised path; other nodes keep their values; an overridden node holds the value of a key normalising to it; a node created on the way holds the empty string |
| Configuration.OverlayApplied | vendor/github.com/tideland/golib/etc/etc.go:257-263 | the same for any prefix of the key order |
| Configuration.AppliedStep | vendor/github.com/tideland/golib/etc/etc.go:258-262 | writing one more override keeps the four Apply properties |
| Configuration.AppliedNodesStep | vendor/github.com/tideland/golib/etc/etc.go:259 | creating one more override path adds exactly its prefixes |
| Configuration.AppliedExact | vendor/github.com/tideland/golib/etc/etc.go:257-263 | an override whose path no other key shares ends up at its normalised path |
| Configuration.OverlayLastWins | vendor/github.com/tideland/golib/etc/etc.go:257-263 | among keys that share a path, the one written last wins |
| Configuration.ApplyCreatesEmpty | vendor/github.com/tideland/golib/etc/etc.go:253-264 | applying `a/b` to the bare configuration creates `a` holding the empty string, which reading `a` then returns instead of the default |
| Configuration.Etc.Write | vendor/github.com/tideland/golib/etc/etc.go:268-300 | for this configuration's depth-first traversal, the events nest and open and close equally many tags; one tag per visited node, in visiting order, named by its last key; each text comes right after the Begin of its node's tag, with as many tags open as the node is deep; every text is a node's value and every node's value is added; no prefix of the events closes more tags than it opened |
| Configuration.Etc.BuildEvents | vendor/github.com/tideland/golib/etc/etc.go:270-300 | the events nest, open and close equally many tags, open one tag per visited node named by its last key and add its value right after that Begin, at the node's depth, in visiting order |
| Configuration.WrittenFromTree | vendor/github.com/tideland/golib/etc/etc.go:272-300 | events whose texts and depths follow a traversal of the tree write every node's value at that node's depth |
| Configuration.Etc.WriteNode | vendor/github.com/tideland/golib/etc/etc.go:273-292 | the events are extended by closing `depth + 1 - len(ks)` tags and then opening the node's tag with its value; afterwards `depth` is the node's path length |
| Configuration.Etc.CloseTags | vendor/github.com/tideland/golib/etc/etc.go:275-277 | the events are extended by exactly `depth - to` End events, or none when `depth <= to` |
| Configuration.Etc.OpenTag | vendor/github.com/tideland/golib/etc/etc.go:280-281 | the events are extended by exactly the tag's Begin and its Text, one level deeper |
| Configuration.Etc.PostProcess | vendor/github.com/tideland/golib/etc/etc.go:326-363 | the nodes are unchanged and the values are those of the pass that resolves the matched leaves one after the other |
| Configuration.Etc.ResolveTemplate | vendor/github.com/tideland/golib/etc/etc.go:338-356 | one leaf's resolution computes the first template's replacement as specified |
| NodeEvents.NestedPrefixes | vendor/github.com/tideland/golib/etc/etc.go:270-300 | in nested events no prefix closes more tags than it opened, so the builder is never asked to end a tag that is not open (used by Write) |

## Left out

- `Read`, `ReadString` and `ReadFile` (etc.go:135-171) are not modelled. They do file and stream I/O and call the external SML parser and tree builder.
- `Write`'s serialisation (etc.go:301-308) is not modelled. `builder.Root`, the SML writer and its context are external; the model stops at the builder's event list.
- `ValueAsBool`, `ValueAsInt`, `ValueAsFloat64`, `ValueAsTime` and `ValueAsDuration` (etc.go:187-214) are not modelled. They only wrap external parsers over floats and times.
- `NewContext`, `FromContext` (etc.go:370-378) and `String` (etc.go:312-314) are not modelled. They are context plumbing and debug formatting.
- Error annotation and the error branches of `Split`, `Dump`, `Apply`, `Write` and `postProcess` are not modelled. On a well-formed tree the modelled tree operations cannot fail, so those branches are unreachable in the model.
- The collections tree is specified, not implemented. `DoAllDeep` is the parameter `visits`, which must enumerate the nodes with their values (`Enumerates`) and, for `Write`, follow the depth discipline (`DepthFirst`). `FindAll` is the parameter `matches`, which must list each matching leaf once (`FoundAll`).
- The collections tree is not part of this model. The model takes it that every node carries a string, that `Create` gives each node it adds the empty string, and that the tree read from `{etc}` holds the root with the empty string.
- `strings.ToLower` is modelled on ASCII letters only. Other Unicode case mappings are not modelled.
- `os.LookupEnv` is the parameter `env`, a map from variable names to values.
- `Split` on a missing path returns `ReadString("{etc}")`. The model builds that configuration directly: the root node `etc` holding the empty string.
- Configuration.Etc.Apply: Go's map iteration order is unspecified. The method takes the keys in an arbitrary order and returns that order as a ghost result, and the properties that hold for every order are proved about the overlay function.
- Template.ReplaceClears: does not state that no copy of the matched text remains in every leaf, because that is false for the code. Template.CopyMayRemain exhibits a leaf where a copy remains, and Template.UnresolvedUnchanged shows that an unresolved template stays in place.

=== FILE: access.dfy ===
/** Addressing nodes and reading their values with a default. */
module Access {
  import opened Paths
  import opened Outcomes

  /** Whether the normalised `path` addresses a node. */
  predicate HasPath(nodes: set<Path>, path: string) {
    MakeFullPath(path) in nodes
  }

  /** What a lookup hands to the defaulter: the full path and the value the
      tree holds there, if any. */
  datatype Value = Value(path: Path, stored: Option<string>) {
    /** The stored string, or an invalid-path error naming the path. */
    function Get(): (r: Result<string, EtcError>)
      ensures r.Success? <==> stored.Some?
      ensures r.Success? ==> r.value == stored.value
      ensures r.Failure? ==> r.error == InvalidPath(PathToString(path))
    {
      match stored
      case Some(s) => Success(s)
      case None => Failure(InvalidPath(PathToString(path)))
    }
  }

  /** The value at the normalised `path`. */
  function ValueAt(leaves: map<Path, string>, path: string): (v: Value)
    ensures v.path == MakeFullPath(path)
    ensures v.Get().Success? <==> MakeFullPath(path) in leaves
    ensures v.Get().Success? ==> v.Get().value == leaves[MakeFullPath(path)]
  {
    var full := MakeFullPath(path);
    Value(full, if full in leaves then Some(leaves[full]) else None)
  }

  /** The defaulter's string conversion: the value when it can be read,
      otherwise the default. */
  function AsString(v: Value, dv: string): (r: string)
    ensures v.stored.Some? ==> r == v.stored.value
    ensures v.stored.None? ==> r == dv
  {
    match v.Get()
    case Success(s) => s
    case Failure(_) => dv
  }

  /** The string at `path`, or `dv` when the normalised path holds no value. */
  function ValueAsString(leaves: map<Path, string>, path: string, dv: string): (r: string)
    ensures MakeFullPath(path) !in leaves ==> r == dv
    ensures MakeFullPath(path) in leaves ==> r == leaves[MakeFullPath(path)]
  {
    AsString(ValueAt(leaves, path), dv)
  }

  /** A missing value reports an invalid-path error naming the full path,
      written with a leading slash. */
  lemma MissingValueNamesPath(leaves: map<Path, string>, path: string)
    requires MakeFullPath(path) !in leaves
    ensures ValueAt(leaves, path).Get() ==
      Failure(InvalidPath(if Parts(path) == [] then "/etc" else "/etc" + PathToString(Parts(path))))
  {
    var full := MakeFullPath(path);
    assert ValueAt(leaves, path) == Value(full, None);
    assert full == ["etc"] + Parts(path);
    if Parts(path) == [] {
      assert full == ["etc"];
      assert JoinSlash(full) == "etc";
      assert PathToString(full) == "/" + "etc" == "/etc";
    } else {
      assert full[1..] == Parts(path);
      assert JoinSlash(full) == "etc" + "/" + JoinSlash(Parts(path));
      assert PathToString(full) == "/" + ("etc" + "/" + JoinSlash(Parts(path)));
      assert PathToString(full) == "/etc" + PathToString(Parts(path));
    }
  }

  /** HasPath answers alike for paths that normalise alike. */
  lemma HasPathIgnoresSpelling(nodes: set<Path>)
    ensures HasPath(nodes, "A//b/") == HasPath(nodes, "/a/b") == HasPath(nodes, "a/b") == ([Root, "a", "b"] in nodes)
  {
    SameNode();
  }
}

=== FILE: etc.dfy ===
/** A configuration: a key/value tree whose root key is "etc", read through
    normalised paths, post-processed once for templates, and transformed
    into new configurations by Split and Apply, flattened by Dump and
    rebuilt as nested tagged nodes by Write. */
module Configuration {
  import opened Paths
  import opened KeyValueTree
  import opened NodeEvents
  import Access
  import Template

  // ----- What the structural operations produce -----

  /** The nodes of `Split(path)`: the subtree at the normalised path with its
      top node renamed to the root key, or the bare root when the path
      addresses no node. */
  function SplitNodes(nodes: set<Path>, path: string): set<Path> {
    var full := MakeFullPath(path);
    if full in nodes then RekeyNodes(SubtreeNodes(nodes, full), Root) else {[Root]}
  }

  /** The values of `Split(path)`, re-addressed as in SplitNodes. */
  function SplitLeaves(leaves: map<Path, string>, nodes: set<Path>, path: string): map<Path, string> {
    var full := MakeFullPath(path);
    if full in nodes then RekeyLeaves(SubtreeLeaves(leaves, full), full[|full| - 1], Root) else map[[Root] := ""]
  }

  /** The key under which Dump reports the value of node `p`: its path below
      the root, joined with '/'. */
  function DumpKey(p: Path): string
    requires |p| >= 1
  {
    JoinSlash(p[1..])
  }

  /** Some key among `keys` normalises to `p`. */
  ghost predicate Overridden(keys: set<string>, p: Path) {
    exists k :: k in keys && MakeFullPath(k) == p
  }

  /** `p` lies on the path that some key among `keys` normalises to, so
      applying that key creates `p` when it is missing. */
  ghost predicate Reached(keys: set<string>, p: Path) {
    exists k :: k in keys && p in Prefixes(MakeFullPath(k))
  }

  /** `out` is `leaves` with the overrides of `appl` under `keys` applied in
      some order: a path holds a value when it did or when it lies on an
      override's path; an overridden path holds the value of one of the keys
      that normalise to it; every other path keeps its value, and one that
      was created on the way holds the empty string. */
  ghost predicate Applied(leaves: map<Path, string>, appl: map<string, string>, keys: set<string>, out: map<Path, string>)
    requires keys <= appl.Keys
  {
    && (forall p :: p in out <==> p in leaves || Reached(keys, p))
    && (forall p :: p in leaves && !Overridden(keys, p) ==> p in out && out[p] == leaves[p])
    && (forall p :: p in out && Overridden(keys, p) ==>
          exists k :: k in keys && MakeFullPath(k) == p && out[p] == appl[k])
    && (forall p :: p in out && p !in leaves && !Overridden(keys, p) ==> out[p] == "")
  }

  /** The nodes after applying the overrides of `keys`: every override path
      is created with all its ancestors. */
  ghost predicate AppliedNodes(nodes: set<Path>, keys: set<string>, out: set<Path>) {
    forall p :: p in out <==> p in nodes || Reached(keys, p)
  }

  /** The last key of a node path: the tag that writing opens for it. */
  function LastKey(p: Path): string {
    if p == [] then "" else p[|p| - 1]
  }

  /** The tags that writing should open, one per visited node. */
  function VisitTags(visits: seq<Visit>): seq<string> {
    if visits == [] then [] else VisitTags(visits[..|visits| - 1]) + [LastKey(visits[|visits| - 1].path)]
  }

  /** The depths of the visited nodes, in order. */
  function VisitDepths(visits: seq<Visit>): seq<int> {
    if visits == [] then [] else VisitDepths(visits[..|visits| - 1]) + [|visits[|visits| - 1].path|]
  }

  /** The visited values, in order. */
  function VisitValues(visits: seq<Visit>): seq<string> {
    if visits == [] then [] else VisitValues(visits[..|visits| - 1]) + [visits[|visits| - 1].value]
  }

  /** One more visit: how the expected tags, values and depths grow. */
  lemma VisitsStep(visits: seq<Visit>, n: nat)
    requires n < |visits|
    ensures VisitTags(visits[..n + 1]) == VisitTags(visits[..n]) + [LastKey(visits[n].path)]
    ensures VisitValues(visits[..n + 1]) == VisitValues(visits[..n]) + [visits[n].value]
    ensures VisitDepths(visits[..n + 1]) == VisitDepths(visits[..n]) + [|visits[n].path|]
  {
    assert visits[..n + 1][..n] == visits[..n];
  }

  /** The expected values and depths are those of the visits, index by
      index. */
  lemma {:induction false} VisitsIndex(visits: seq<Visit>)
    ensures |VisitValues(visits)| == |VisitDepths(visits)| == |visits|
    ensures forall i :: 0 <= i < |visits| ==>
      VisitValues(visits)[i] == visits[i].value && VisitDepths(visits)[i] == |visits[i].path|
    decreases |visits|
  {
    if visits != [] {
      var init := visits[..|visits| - 1];
      VisitsIndex(init);
      assert forall i :: 0 <= i < |init| ==> init[i] == visits[i];
    }
  }

  /** Every text of `events` is the value of a node of `leaves`, added with
      as many tags open as that node is deep, and every node's value is
      added. */
  ghost predicate WritesValues(leaves: map<Path, string>, events: seq<Event>) {
    && |Texts(events)| == |TextDepths(events)|
    && (forall i :: 0 <= i < |Texts(events)| ==>
          exists p :: p in leaves && Texts(events)[i] == leaves[p] && TextDepths(events)[i] == |p|)
    && (forall p :: p in leaves ==> leaves[p] in Texts(events))
  }

  /** Events whose texts and depths are those of a traversal of `leaves`
      add every node's value, each at its node's depth. */
  lemma WrittenFromTree(leaves: map<Path, string>, visits: seq<Visit>, events: seq<Event>)
    requires Enumerates(visits, leaves)
    requires Texts(events) == VisitValues(visits) && TextDepths(events) == VisitDepths(visits)
    ensures WritesValues(leaves, events)
  {
    VisitsIndex(visits);
    WrittenTexts(leaves, visits, Texts(events), TextDepths(events));
    WrittenNodes(leaves, visits, Texts(events));
  }

  /** Each expected text is a node's value at that node's depth. */
  lemma WrittenTexts(leaves: map<Path, string>, visits: seq<Visit>, texts: seq<string>, depths: seq<int>)
    requires forall j :: 0 <= j < |visits| ==> visits[j].path in leaves && leaves[visits[j].path] == visits[j].value
    requires |texts| == |depths| == |visits|
    requires forall i :: 0 <= i < |visits| ==> texts[i] == visits[i].value && depths[i] == |visits[i].path|
    ensures forall i :: 0 <= i < |texts| ==> exists p :: p in leaves && texts[i] == leaves[p] && depths[i] == |p|
  {
    forall i | 0 <= i < |texts|
      ensures exists p :: p in leaves && texts[i] == leaves[p] && depths[i] == |p|
    {
      var p := visits[i].path;
      assert p in leaves && texts[i] == leaves[p] && depths[i] == |p|;
    }
  }

  /** Each node's value is among the expected texts. */
  lemma WrittenNodes(leaves: map<Path, string>, visits: seq<Visit>, texts: seq<string>)
    requires Enumerates(visits, leaves)
    requires |texts| == |visits| && forall i :: 0 <= i < |visits| ==> texts[i] == visits[i].value
    ensures forall p :: p in leaves ==> leaves[p] in texts
  {
    forall p | p in leaves ensures leaves[p] in texts {
      var j :| 0 <= j < |visits| && visits[j].path == p;
      assert texts[j] == leaves[p];
    }
  }

  /** Distinct valid node paths below the same root have distinct Dump keys. */
  lemma DumpKeyInjective(p: Path, q: Path)
    requires |p| > 1 && |q| > 1 && ValidPath(p) && ValidPath(q) && p[0] == q[0]
    requires DumpKey(p) == DumpKey(q)
    ensures p == q
  {
    JoinInjective(p[1..], q[1..]);
    assert p == [p[0]] + p[1..] && q == [q[0]] + q[1..];
  }

  lemma OverriddenStep(keys: set<string>, k: string, p: Path)
    ensures Overridden(keys + {k}, p) <==> Overridden(keys, p) || p == MakeFullPath(k)
  {
    if Overridden(keys + {k}, p) && p != MakeFullPath(k) {
      var k' :| k' in keys + {k} && MakeFullPath(k') == p;
      assert k' in keys;
    }
    if Overridden(keys, p) {
      var k' :| k' in keys && MakeFullPath(k') == p;
      assert k' in keys + {k};
    }
    if p == MakeFullPath(k) {
      assert k in keys + {k};
    }
  }

  lemma ReachedStep(keys: set<string>, k: string, p: Path)
    ensures Reached(keys + {k}, p) <==> Reached(keys, p) || p in Prefixes(MakeFullPath(k))
  {
    if Reached(keys + {k}, p) && p !in Prefixes(MakeFullPath(k)) {
      var k' :| k' in keys + {k} && p in Prefixes(MakeFullPath(k'));
      assert k' in keys;
    }
    if Reached(keys, p) {
      var k' :| k' in keys && p in Prefixes(MakeFullPath(k'));
      assert k' in keys + {k};
    }
    if p in Prefixes(MakeFullPath(k)) {
      assert k in keys + {k};
    }
  }

  /** An overridden path lies on its own override's path. */
  lemma OverriddenReached(keys: set<string>, p: Path)
    requires Overridden(keys, p)
    ensures Reached(keys, p)
  {
    var k :| k in keys && MakeFullPath(k) == p;
    assert p[..|p|] == p;
  }

  /** Applying one more key keeps the valued paths exact. */
  lemma AppliedKeysStep(leaves: map<Path, string>, keys: set<string>, out: map<Path, string>, k: string, v: string, out': map<Path, string>)
    requires forall p :: p in out <==> p in leaves || Reached(keys, p)
    requires out' == Created(out, MakeFullPath(k))[MakeFullPath(k) := v]
    ensures forall p :: p in out' <==> p in leaves || Reached(keys + {k}, p)
  {
    var fp := MakeFullPath(k);
    assert fp[..|fp|] == fp;
    forall p ensures p in out' <==> p in leaves || Reached(keys + {k}, p) {
      ReachedStep(keys, k, p);
    }
  }

  /** Applying one more key keeps every path no key normalises to. */
  lemma AppliedKeepStep(leaves: map<Path, string>, keys: set<string>, out: map<Path, string>, k: string, v: string, out': map<Path, string>)
    requires forall p :: p in leaves && !Overridden(keys, p) ==> p in out && out[p] == leaves[p]
    requires out' == Created(out, MakeFullPath(k))[MakeFullPath(k) := v]
    ensures forall p :: p in leaves && !Overridden(keys + {k}, p) ==> p in out' && out'[p] == leaves[p]
  {
    forall p | p in leaves && !Overridden(keys + {k}, p)
      ensures p in out' && out'[p] == leaves[p]
    {
      OverriddenStep(keys, k, p);
    }
  }

  /** Applying one more key gives every overridden path the value of a key
      that normalises to it. */
  lemma AppliedOverrideStep(leaves: map<Path, string>, appl: map<string, string>, keys: set<string>, out: map<Path, string>, k: string, out': map<Path, string>)
    requires keys <= appl.Keys && k in appl
    requires forall p :: p in out <==> p in leaves || Reached(keys, p)
    requires forall p :: p in out && Overridden(keys, p) ==>
      exists k' :: k' in keys && MakeFullPath(k') == p && out[p] == appl[k']
    requires out' == Created(out, MakeFullPath(k))[MakeFullPath(k) := appl[k]]
    ensures forall p :: p in out' && Overridden(keys + {k}, p) ==>
      exists k' :: k' in keys + {k} && MakeFullPath(k') == p && out'[p] == appl[k']
  {
    var fp := MakeFullPath(k);
    forall p | p in out' && Overridden(keys + {k}, p)
      ensures exists k' :: k' in keys + {k} && MakeFullPath(k') == p && out'[p] == appl[k']
    {
      OverriddenStep(keys, k, p);
      if p == fp {
        assert k in keys + {k};
      } else {
        OverriddenReached(keys, p);
        var k' :| k' in keys && MakeFullPath(k') == p && out[p] == appl[k'];
        assert k' in keys + {k};
      }
    }
  }

  /** Applying one more key leaves every path it creates on the way empty. */
  lemma AppliedFreshStep(leaves: map<Path, string>, keys: set<string>, out: map<Path, string>, k: string, v: string, out': map<Path, string>)
    requires forall p :: p in out && p !in leaves && !Overridden(keys, p) ==> out[p] == ""
    requires out' == Created(out, MakeFullPath(k))[MakeFullPath(k) := v]
    ensures forall p :: p in out' && p !in leaves && !Overridden(keys + {k}, p) ==> out'[p] == ""
  {
    forall p | p in out' && p !in leaves && !Overridden(keys + {k}, p)
      ensures out'[p] == ""
    {
      OverriddenStep(keys, k, p);
    }
  }

  lemma AppliedStep(leaves: map<Path, string>, appl: map<string, string>, keys: set<string>,
                    out: map<Path, string>, k: string, out': map<Path, string>)
    requires keys <= appl.Keys && k in appl
    requires Applied(leaves, appl, keys, out)
    requires out' == Created(out, MakeFullPath(k))[MakeFullPath(k) := appl[k]]
    ensures Applied(leaves, appl, keys + {k}, out')
  {
    AppliedKeysStep(leaves, keys, out, k, appl[k], out');
    AppliedKeepStep(leaves, keys, out, k, appl[k], out');
    AppliedOverrideStep(leaves, appl, keys, out, k, out');
    AppliedFreshStep(leaves, keys, out, k, appl[k], out');
  }

  lemma AppliedNodesStep(nodes: set<Path>, keys: set<string>, out: set<Path>, k: string)
    requires AppliedNodes(nodes, keys, out)
    ensures AppliedNodes(nodes, keys + {k}, out + Prefixes(MakeFullPath(k)))
  {
    forall p ensures p in out + Prefixes(MakeFullPath(k)) <==> p in nodes || Reached(keys + {k}, p) {
      ReachedStep(keys, k, p);
    }
  }

  /** The keys listed in `order`. */
  function Taken(order: seq<string>): set<string> {
    set k | k in order
  }

  lemma TakenAppend(order: seq<string>, k: string)
    ensures Taken(order + [k]) == Taken(order) + {k}
  {
    assert forall x :: x in order + [k] <==> x in order || x == k;
  }

  /** The values after the overrides of `order` are written one after the
      other, each creating the missing nodes on its path, a later key
      overwriting an earlier one with the same path. */
  function Overlay(leaves: map<Path, string>, appl: map<string, string>, order: seq<string>): map<Path, string>
    requires forall k :: k in order ==> k in appl
  {
    if order == [] then leaves
    else
      var last := order[|order| - 1];
      var fp := MakeFullPath(last);
      Created(Overlay(leaves, appl, order[..|order| - 1]), fp)[fp := appl[last]]
  }

  /** The nodes after the overrides of `order` are created with their
      ancestors. */
  function OverlayNodes(nodes: set<Path>, order: seq<string>): set<Path> {
    if order == [] then nodes
    else OverlayNodes(nodes, order[..|order| - 1]) + Prefixes(MakeFullPath(order[|order| - 1]))
  }

  /** Writing one more override after `order`. */
  lemma OverlayAppend(leaves: map<Path, string>, nodes: set<Path>, appl: map<string, string>, order: seq<string>, k: string)
    requires forall k' :: k' in order ==> k' in appl
    requires k in appl
    ensures forall k' :: k' in order + [k] ==> k' in appl
    ensures Overlay(leaves, appl, order + [k]) == Created(Overlay(leaves, appl, order), MakeFullPath(k))[MakeFullPath(k) := appl[k]]
    ensures OverlayNodes(nodes, order + [k]) == OverlayNodes(nodes, order) + Prefixes(MakeFullPath(k))
  {
    assert (order + [k])[..|order|] == order;
  }

  /** Writing the overrides in any order applies them in the sense of
      Applied and AppliedNodes. */
  lemma {:induction false} OverlayApplied(leaves: map<Path, string>, nodes: set<Path>, appl: map<string, string>, order: seq<string>)
    requires forall k :: k in order ==> k in appl
    ensures Applied(leaves, appl, Taken(order), Overlay(leaves, appl, order))
    ensures AppliedNodes(nodes, Taken(order), OverlayNodes(nodes, order))
    decreases |order|
  {
    if order != [] {
      var init, last := order[..|order| - 1], order[|order| - 1];
      assert order == init + [last];
      TakenAppend(init, last);
      assert forall k :: k in init ==> k in order;
      OverlayApplied(leaves, nodes, appl, init);
      AppliedStep(leaves, appl, Taken(init), Overlay(leaves, appl, init), last, Overlay(leaves, appl, order));
      AppliedNodesStep(nodes, Taken(init), OverlayNodes(nodes, init), last);
    }
  }

  /** Writing every override, in whichever order the keys are taken, applies
      all of them. */
  lemma OverlayAppliesAll(leaves: map<Path, string>, nodes: set<Path>, appl: map<string, string>, order: seq<string>)
    requires forall k :: k in order <==> k in appl
    ensures Applied(leaves, appl, appl.Keys, Overlay(leaves, appl, order))
    ensures AppliedNodes(nodes, appl.Keys, OverlayNodes(nodes, order))
  {
    OverlayApplied(leaves, nodes, appl, order);
    assert Taken(order) == appl.Keys;
  }

  // ----- What Split, Dump and Apply promise -----

  /** After a split at an existing `path`, `sub` addresses the node that
      `path/sub` addresses in the original. */
  lemma SplitHasPath(nodes: set<Path>, path: string, sub: string)
    requires Access.HasPath(nodes, path)
    ensures Access.HasPath(SplitNodes(nodes, path), sub) <==> Access.HasPath(nodes, path + "/" + sub)
  {
    var full := MakeFullPath(path);
    var n := |full| - 1;
    FullPathConcat(path, sub);
    var target := [Root] + Parts(sub);
    if target in SplitNodes(nodes, path) {
      var p :| p in SubtreeNodes(nodes, full) && |p| >= 1 && target == [Root] + p[1..];
      var p' :| p' in nodes && full <= p' && p == p'[n..];
      assert p' == full + p'[|full|..];
      assert p'[|full|..] == p[1..] == target[1..] == Parts(sub);
      assert p' == full + Parts(sub);
    }
    if full + Parts(sub) in nodes {
      var p' := full + Parts(sub);
      var p := p'[n..];
      assert p in SubtreeNodes(nodes, full);
      assert |p| >= 1 && [Root] + p[1..] == target;
      assert target in RekeyNodes(SubtreeNodes(nodes, full), Root);
    }
  }

  /** After a split at an existing `path`, the string at `sub` is the string
      at `path/sub` in the original, with the same default. */
  lemma SplitValueAsString(leaves: map<Path, string>, nodes: set<Path>, path: string, sub: string, dv: string)
    requires Access.HasPath(nodes, path)
    ensures Access.ValueAsString(SplitLeaves(leaves, nodes, path), sub, dv) == Access.ValueAsString(leaves, path + "/" + sub, dv)
  {
    var full := MakeFullPath(path);
    var n := |full| - 1;
    FullPathConcat(path, sub);
    var target := [Root] + Parts(sub);
    var inSub := [full[n]] + Parts(sub);
    var sl := SubtreeLeaves(leaves, full);
    assert full[..n] + inSub == full + Parts(sub);
    if full + Parts(sub) in leaves {
      var p' := full + Parts(sub);
      assert p'[n..] == inSub;
      assert inSub in SubtreeNodes(leaves.Keys, full);
      assert inSub in sl && sl[inSub] == leaves[p'];
      assert target == [Root] + inSub[1..];
      assert [full[n]] + target[1..] == inSub;
      assert target in RekeyNodes(sl.Keys, Root);
    }
    if target in SplitLeaves(leaves, nodes, path) {
      assert [full[n]] + target[1..] == inSub;
      assert inSub in sl;
    }
  }

  /** `appl` holds exactly the Dump of `leaves`: every node below the root,
      with its value, under its Dump key, and nothing else. */
  ghost predicate Dumped(leaves: map<Path, string>, appl: map<string, string>) {
    && (forall p :: p in leaves && |p| > 1 ==> DumpKey(p) in appl && appl[DumpKey(p)] == leaves[p])
    && (forall k :: k in appl ==> exists p :: p in leaves && |p| > 1 && DumpKey(p) == k && appl[k] == leaves[p])
  }

  /** `appl` holds the Dump entries of the first `n` visits. */
  ghost predicate DumpedUpTo(visits: seq<Visit>, n: nat, appl: map<string, string>)
    requires n <= |visits|
  {
    && (forall j :: 0 <= j < n && |visits[j].path| > 1 ==>
          DumpKey(visits[j].path) in appl && appl[DumpKey(visits[j].path)] == visits[j].value)
    && (forall k :: k in appl ==>
          exists j :: 0 <= j < n && |visits[j].path| > 1 && DumpKey(visits[j].path) == k && appl[k] == visits[j].value)
  }

  /** One step of Dump: the entry for visit `n`, if it is below the root. */
  lemma DumpStep(nodes: set<Path>, leaves: map<Path, string>, visits: seq<Visit>, n: nat, appl: map<string, string>)
    requires WellFormed(Root, nodes, leaves) && Enumerates(visits, leaves)
    requires n < |visits| && DumpedUpTo(visits, n, appl)
    ensures |visits[n].path| > 1 ==> DumpedUpTo(visits, n + 1, appl[DumpKey(visits[n].path) := visits[n].value])
    ensures |visits[n].path| <= 1 ==> DumpedUpTo(visits, n + 1, appl)
  {
    if |visits[n].path| > 1 {
      DumpStepFound(nodes, leaves, visits, n, appl);
      DumpStepFrom(visits, n, appl);
    } else {
      DumpStepSkip(visits, n, appl);
    }
  }

  /** The root's visit adds no entry. */
  lemma DumpStepSkip(visits: seq<Visit>, n: nat, appl: map<string, string>)
    requires n < |visits| && |visits[n].path| <= 1 && DumpedUpTo(visits, n, appl)
    ensures DumpedUpTo(visits, n + 1, appl)
  {
    forall k | k in appl
      ensures exists j :: 0 <= j < n + 1 && |visits[j].path| > 1 && DumpKey(visits[j].path) == k && appl[k] == visits[j].value
    {
      var j :| 0 <= j < n && |visits[j].path| > 1 && DumpKey(visits[j].path) == k && appl[k] == visits[j].value;
    }
  }

  /** After visit `n`, every visit so far has its entry. */
  lemma DumpStepFound(nodes: set<Path>, leaves: map<Path, string>, visits: seq<Visit>, n: nat, appl: map<string, string>)
    requires WellFormed(Root, nodes, leaves) && Enumerates(visits, leaves)
    requires n < |visits| && |visits[n].path| > 1 && DumpedUpTo(visits, n, appl)
    ensures var appl' := appl[DumpKey(visits[n].path) := visits[n].value];
      forall j :: 0 <= j <= n && |visits[j].path| > 1 ==>
        DumpKey(visits[j].path) in appl' && appl'[DumpKey(visits[j].path)] == visits[j].value
  {
    var ks, v := visits[n].path, visits[n].value;
    var key := DumpKey(ks);
    var appl' := appl[key := v];
    forall j | 0 <= j <= n && |visits[j].path| > 1
      ensures DumpKey(visits[j].path) in appl' && appl'[DumpKey(visits[j].path)] == visits[j].value
    {
      var p := visits[j].path;
      if j == n {
      } else if DumpKey(p) == key {
        DumpKeyInjective(p, ks);
        assert visits[j].value == leaves[p] == v;
      } else {
        assert appl'[DumpKey(p)] == appl[DumpKey(p)];
      }
    }
  }

  /** After visit `n`, every entry comes from a visit so far. */
  lemma DumpStepFrom(visits: seq<Visit>, n: nat, appl: map<string, string>)
    requires n < |visits| && |visits[n].path| > 1 && DumpedUpTo(visits, n, appl)
    ensures var appl' := appl[DumpKey(visits[n].path) := visits[n].value];
      forall k :: k in appl' ==>
        exists j :: 0 <= j < n + 1 && |visits[j].path| > 1 && DumpKey(visits[j].path) == k && appl'[k] == visits[j].value
  {
    var key := DumpKey(visits[n].path);
    var appl' := appl[key := visits[n].value];
    forall k | k in appl'
      ensures exists j :: 0 <= j < n + 1 && |visits[j].path| > 1 && DumpKey(visits[j].path) == k && appl'[k] == visits[j].value
    {
      if k == key {
        assert DumpKey(visits[n].path) == k && appl'[k] == visits[n].value;
      } else {
        var j :| 0 <= j < n && |visits[j].path| > 1 && DumpKey(visits[j].path) == k && appl[k] == visits[j].value;
        assert appl'[k] == visits[j].value;
      }
    }
  }

  /** After every visit, the entries are the Dump of the values. */
  lemma DumpDone(nodes: set<Path>, leaves: map<Path, string>, visits: seq<Visit>, appl: map<string, string>)
    requires WellFormed(Root, nodes, leaves) && Enumerates(visits, leaves)
    requires DumpedUpTo(visits, |visits|, appl)
    ensures Dumped(leaves, appl)
  {
    forall p | p in leaves && |p| > 1
      ensures DumpKey(p) in appl && appl[DumpKey(p)] == leaves[p]
    {
      var j :| 0 <= j < |visits| && visits[j].path == p;
    }
  }

  /** A Dump key addresses the node it was made from. */
  lemma DumpKeyAddresses(p: Path)
    requires |p| > 1 && p[0] == Root && ValidPath(p)
    ensures MakeFullPath(DumpKey(p)) == p
  {
    PathToStringRoundTrip(p[1..]);
    LeadingSlashIgnored(JoinSlash(p[1..]));
    assert p == [Root] + p[1..];
  }

  /** Every node on the path of a key of a configuration's own Dump already
      exists. */
  lemma DumpReachedPresent(nodes: set<Path>, leaves: map<Path, string>, appl: map<string, string>, p: Path)
    requires WellFormed(Root, nodes, leaves)
    requires Dumped(leaves, appl)
    requires Reached(appl.Keys, p)
    ensures p in leaves
  {
    var k :| k in appl.Keys && p in Prefixes(MakeFullPath(k));
    var q :| q in leaves && |q| > 1 && DumpKey(q) == k && appl[k] == leaves[q];
    DumpKeyAddresses(q);
    assert p == q[..|p|];
  }

  /** An overridden path of a configuration's own Dump gets its old value
      back. */
  lemma DumpOverrideSame(nodes: set<Path>, leaves: map<Path, string>, appl: map<string, string>, out: map<Path, string>, p: Path)
    requires WellFormed(Root, nodes, leaves)
    requires Dumped(leaves, appl)
    requires p in out && Overridden(appl.Keys, p)
    requires exists k :: k in appl.Keys && MakeFullPath(k) == p && out[p] == appl[k]
    ensures p in leaves && out[p] == leaves[p]
  {
    var k :| k in appl.Keys && MakeFullPath(k) == p && out[p] == appl[k];
    var q :| q in leaves && |q| > 1 && DumpKey(q) == k && appl[k] == leaves[q];
    DumpKeyAddresses(q);
  }

  /** Applying a configuration's own Dump to it changes no value. */
  lemma ApplyDumpUnchanged(nodes: set<Path>, leaves: map<Path, string>, appl: map<string, string>, out: map<Path, string>)
    requires WellFormed(Root, nodes, leaves)
    requires Dumped(leaves, appl)
    requires Applied(leaves, appl, appl.Keys, out)
    ensures out == leaves
  {
    forall p ensures p in out <==> p in leaves {
      if Reached(appl.Keys, p) {
        DumpReachedPresent(nodes, leaves, appl, p);
      }
    }
    forall p | p in leaves ensures out[p] == leaves[p] {
      if Overridden(appl.Keys, p) {
        DumpOverrideSame(nodes, leaves, appl, out, p);
      }
    }
  }

  /** An override that no other key collides with lands at its normalised
      path. */
  lemma AppliedExact(leaves: map<Path, string>, appl: map<string, string>, out: map<Path, string>, k: string)
    requires Applied(leaves, appl, appl.Keys, out) && k in appl
    requires forall k' :: k' in appl && MakeFullPath(k') == MakeFullPath(k) ==> k' == k
    ensures MakeFullPath(k) in out && out[MakeFullPath(k)] == appl[k]
  {
    assert Overridden(appl.Keys, MakeFullPath(k));
    OverriddenReached(appl.Keys, MakeFullPath(k));
  }

  /** The last override written lands at its path. */
  lemma OverlayLast(leaves: map<Path, string>, appl: map<string, string>, order: seq<string>)
    requires forall k :: k in order ==> k in appl
    requires |order| >= 1
    ensures var fp := MakeFullPath(order[|order| - 1]);
      fp in Overlay(leaves, appl, order) && Overlay(leaves, appl, order)[fp] == appl[order[|order| - 1]]
  {
  }

  /** Writing the last override keeps the value of every other valued path. */
  lemma OverlayKeeps(leaves: map<Path, string>, appl: map<string, string>, order: seq<string>, q: Path)
    requires forall k :: k in order ==> k in appl
    requires |order| >= 1
    requires q in Overlay(leaves, appl, order[..|order| - 1]) && q != MakeFullPath(order[|order| - 1])
    ensures q in Overlay(leaves, appl, order)
    ensures Overlay(leaves, appl, order)[q] == Overlay(leaves, appl, order[..|order| - 1])[q]
  {
  }

  /** Among keys that collide, the one written last wins. */
  lemma {:induction false} OverlayLastWins(leaves: map<Path, string>, appl: map<string, string>, order: seq<string>, j: nat)
    requires forall k :: k in order ==> k in appl
    requires j < |order|
    requires forall i :: j < i < |order| ==> MakeFullPath(order[i]) != MakeFullPath(order[j])
    ensures MakeFullPath(order[j]) in Overlay(leaves, appl, order)
    ensures Overlay(leaves, appl, order)[MakeFullPath(order[j])] == appl[order[j]]
    decreases |order|
  {
    var init := order[..|order| - 1];
    if j < |order| - 1 {
      assert forall k :: k in init ==> k in order;
      assert forall i :: j < i < |init| ==> init[i] == order[i];
      OverlayLastWins(leaves, appl, init, j);
      assert init[j] == order[j];
      OverlayKeeps(leaves, appl, order, MakeFullPath(order[j]));
    } else {
      OverlayLast(leaves, appl, order);
    }
  }

  /** Applying "a/b" := "x" to the bare configuration creates the node a
      on the way, holding the empty string, which reading it then returns
      instead of the default. */
  lemma ApplyCreatesEmpty()
    ensures var out := Overlay(map[[Root] := ""], map["a/b" := "x"], ["a/b"]);
      out == map[[Root] := "", [Root, "a"] := "", [Root, "a", "b"] := "x"] &&
      Access.ValueAsString(out, "a", "d") == ""
  {
    OverlayAB();
    FullPathA();
  }

  /** The values after applying "a/b" := "x" to the bare tree. */
  lemma OverlayAB()
    ensures Overlay(map[[Root] := ""], map["a/b" := "x"], ["a/b"]) ==
      map[[Root] := "", [Root, "a"] := "", [Root, "a", "b"] := "x"]
  {
    FullPathAB();
    var fp := [Root, "a", "b"];
    OverlayAppend(map[[Root] := ""], {}, map["a/b" := "x"], [], "a/b");
    assert [] + ["a/b"] == ["a/b"];
    CreatedAB();
  }

  /** Creating "etc/a/b" in the bare tree and setting it to "x". */
  lemma CreatedAB()
    ensures Created(map[[Root] := ""], [Root, "a", "b"])[[Root, "a", "b"] := "x"] ==
      map[[Root] := "", [Root, "a"] := "", [Root, "a", "b"] := "x"]
  {
    var fp := [Root, "a", "b"];
    assert fp[..1] == [Root] && fp[..2] == [Root, "a"] && fp[..3] == fp;
    assert Prefixes(fp) == {[Root], [Root, "a"], fp};
  }

  /** The full path of "a". */
  lemma FullPathA()
    ensures MakeFullPath("a") == [Root, "a"]
  {
    SplitNoSlash("a");
    assert Lower("a") == "a";
  }

  /** Resolving the n-th match leaves the later matches as they were before
      the pass, since the matches are distinct. */
  lemma PendingUnchanged(before: map<Path, string>, leaves: map<Path, string>, matches: seq<Path>, n: nat, v: string)
    requires Template.FoundAll(before, matches) && n < |matches|
    requires forall j :: n <= j < |matches| ==> matches[j] in leaves && leaves[matches[j]] == before[matches[j]]
    ensures forall j :: n + 1 <= j < |matches| ==>
      matches[j] in leaves[matches[n] := v] && leaves[matches[n] := v][matches[j]] == before[matches[j]]
  {
    forall j | n + 1 <= j < |matches|
      ensures matches[j] in leaves[matches[n] := v] && leaves[matches[n] := v][matches[j]] == before[matches[j]]
    {
      assert matches[n] != matches[j];
    }
  }

  // ----- The configuration object -----

  class Etc {
    /** The tree holding the configuration's nodes and values. */
    const values: Tree

    ghost predicate Valid()
      reads this, values
    {
      values.Valid() && values.root == Root
    }

    constructor (values: Tree)
      requires values.Valid() && values.root == Root
      ensures Valid() && this.values == values
    {
      this.values := values;
    }

    /** The sub-configuration at `path`: a new configuration owning a copy of
        the subtree there, whose top node is renamed to the root key; an
        empty configuration when the path addresses no node. */
    method Split(path: string) returns (es: Etc)
      requires Valid()
      ensures fresh(es) && fresh(es.values) && es.Valid()
      ensures !Access.HasPath(values.nodes, path) ==> es.values.nodes == {[Root]} && es.values.leaves == map[[Root] := ""]
      ensures Access.HasPath(values.nodes, path) ==> [Root] in es.values.nodes
      ensures es.values.nodes == SplitNodes(values.nodes, path)
      ensures es.values.leaves == SplitLeaves(values.leaves, values.nodes, path)
    {
      if !Access.HasPath(values.nodes, path) {
        var t := new Tree(Root);
        es := new Etc(t);
      } else {
        var full := MakeFullPath(path);
        var t := values.CopyAt(full);
        t.SetRootKey(Root);
        es := new Etc(t);
      }
    }

    /** The values of every node below the root, keyed by their path below
        the root joined with '/'. `visits` is the depth-first traversal of
        the tree. */
    method Dump(visits: seq<Visit>) returns (appl: map<string, string>)
      requires Valid() && Enumerates(visits, values.leaves)
      ensures Dumped(values.leaves, appl)
    {
      appl := map[];
      for i := 0 to |visits|
        invariant DumpedUpTo(visits, i, appl)
      {
        var ks, v := visits[i].path, visits[i].value;
        DumpStep(values.nodes, values.leaves, visits, i, appl);
        if |ks| == 1 {
          continue;
        }
        appl := appl[DumpKey(ks) := v];
      }
      DumpDone(values.nodes, values.leaves, visits, appl);
    }

    /** A new configuration: a copy of this one with every override of
        `appl` created or overwritten at its normalised path, the keys taken
        in no particular order. This configuration is left unchanged. */
    method Apply(appl: map<string, string>) returns (ec: Etc, ghost order: seq<string>)
      requires Valid()
      ensures fresh(ec) && fresh(ec.values) && ec.Valid()
      ensures forall k :: k in order <==> k in appl
      ensures ec.values.leaves == Overlay(values.leaves, appl, order)
      ensures ec.values.nodes == OverlayNodes(values.nodes, order)
    {
      var t := values.Copy();
      var rest := appl.Keys;
      order := [];
      while rest != {}
        invariant fresh(t) && t.Valid() && t.root == Root
        invariant rest <= appl.Keys && (forall k :: k in order ==> k in appl)
        invariant forall k :: k in appl ==> (k in order <==> k !in rest)
        invariant t.leaves == Overlay(values.leaves, appl, order)
        invariant t.nodes == OverlayNodes(values.nodes, order)
        decreases |rest|
      {
        var path :| path in rest;
        Override(t, values.leaves, values.nodes, appl, order, path);
        rest := rest - {path};
        order := order + [path];
      }
      ec := new Etc(t);
    }

    /** One step of Apply: writes the override of `path` into `t`, which
        holds the overrides of `order` written over `leaves` and `nodes`. */
    static method Override(t: Tree, ghost leaves: map<Path, string>, ghost nodes: set<Path>,
                           appl: map<string, string>, ghost order: seq<string>, path: string)
      requires t.Valid() && t.root == Root
      requires (forall k :: k in order ==> k in appl) && path in appl
      requires t.leaves == Overlay(leaves, appl, order) && t.nodes == OverlayNodes(nodes, order)
      modifies t
      ensures t.Valid() && t.root == Root
      ensures t.leaves == Overlay(leaves, appl, order + [path])
      ensures t.nodes == OverlayNodes(nodes, order + [path])
    {
      OverlayAppend(leaves, nodes, appl, order, path);
      t.CreateWithValue(MakeFullPath(path), appl[path]);
    }

    /** The builder events for this configuration, from the depth-first
        traversal `visits` of its tree: one tag per visited node, in visiting
        order, holding the node's value with as many tags open as the node
        is deep; every text added is the value of a node, and every node's
        value is added. */
    method Write(visits: seq<Visit>) returns (events: seq<Event>)
      requires Valid() && Enumerates(visits, values.leaves) && DepthFirst(visits)
      ensures Nested(events) && Begins(events) == Ends(events)
      ensures Tags(events) == VisitTags(visits) && Texts(events) == VisitValues(visits)
      ensures TextDepths(events) == VisitDepths(visits)
      ensures TextsOpened(events)
      ensures forall k :: 0 <= k <= |events| ==> Ends(events[..k]) <= Begins(events[..k])
      ensures WritesValues(values.leaves, events)
    {
      events := BuildEvents(visits);
      WrittenFromTree(values.leaves, visits, events);
      forall k | 0 <= k <= |events| ensures Ends(events[..k]) <= Begins(events[..k]) {
        NestedPrefixes(events, k);
      }
    }

    /** The builder events for the depth-first traversal `visits`: one tag
        per visited node, holding its value, opened and closed so that the
        nesting follows the depths of the traversal. */
    static method BuildEvents(visits: seq<Visit>) returns (events: seq<Event>)
      requires DepthFirst(visits)
      ensures Nested(events) && Begins(events) == Ends(events)
      ensures Tags(events) == VisitTags(visits)
      ensures Texts(events) == VisitValues(visits)
      ensures TextDepths(events) == VisitDepths(visits)
      ensures TextsOpened(events)
    {
      events := [];
      var depth := 0;
      for n := 0 to |visits|
        invariant Nested(events) && Depth(events) == depth
        invariant depth == if n == 0 then 0 else |visits[n - 1].path|
        invariant Tags(events) == VisitTags(visits[..n])
        invariant Texts(events) == VisitValues(visits[..n])
        invariant TextDepths(events) == VisitDepths(visits[..n])
        invariant TextsOpened(events)
      {
        VisitsStep(visits, n);
        OpenedStep(events, depth + 1 - |visits[n].path|, LastKey(visits[n].path), visits[n].value);
        events, depth := WriteNode(events, depth, visits[n].path, visits[n].value);
      }
      ClosedStep(events, depth);
      events := CloseTags(events, depth, 0);
      assert visits[..|visits|] == visits;
    }

    /** The events for one visited node at path `ks` with value `v`, after
        `events` that leave `depth` tags open: the tags down to the node's
        parent are closed, which includes the previous node's tag when it is
        not the parent, and the node's tag is opened holding its value. */
    static method WriteNode(events: seq<Event>, depth: nat, ks: Path, v: string) returns (out: seq<Event>, depth': nat)
      requires Nested(events) && Depth(events) == depth
      requires 1 <= |ks| <= depth + 1
      ensures out == events + Closes(depth + 1 - |ks|) + [Begin(LastKey(ks)), Text(v)]
      ensures Nested(out) && Depth(out) == depth' == |ks|
      ensures Tags(out) == Tags(events) + [LastKey(ks)]
      ensures Texts(out) == Texts(events) + [v]
      ensures TextDepths(out) == TextDepths(events) + [|ks|]
    {
      var doDepth := |ks|;
      var tag := ks[doDepth - 1];
      out := CloseTags(events, depth, doDepth);
      depth' := depth;
      if doDepth > depth {
        out := OpenTag(out, tag, v);
        depth' := doDepth;
      } else if doDepth == depth {
        Append(out, End);
        assert Closes(0) + [End] == Closes(1);
        out := OpenTag(out + [End], tag, v);
      } else {
        Append(out, End);
        assert Closes(depth - doDepth) + [End] == Closes(depth - doDepth + 1);
        out := OpenTag(out + [End], tag, v);
        depth' := doDepth;
      }
    }

    /** Opens a tag holding the text `v`, inside the tags already open. */
    static method OpenTag(events: seq<Event>, tag: string, v: string) returns (out: seq<Event>)
      requires Nested(events) && Depth(events) >= 0
      ensures out == events + [Begin(tag), Text(v)]
      ensures Nested(out) && Depth(out) == Depth(events) + 1
      ensures Tags(out) == Tags(events) + [tag] && Texts(out) == Texts(events) + [v]
      ensures TextDepths(out) == TextDepths(events) + [Depth(events) + 1]
    {
      Append(events, Begin(tag));
      out := events + [Begin(tag)];
      Append(out, Text(v));
      out := out + [Text(v)];
    }

    /** Closes open tags, innermost first, from `depth` open tags down to
        `to`. */
    static method CloseTags(events: seq<Event>, depth: nat, to: nat) returns (out: seq<Event>)
      requires Nested(events) && Depth(events) == depth
      ensures out == events + Closes(if depth > to then depth - to else 0)
      ensures Nested(out) && Depth(out) == if depth > to then to else depth
      ensures Tags(out) == Tags(events) && Texts(out) == Texts(events)
      ensures TextDepths(out) == TextDepths(events)
    {
      out := events;
      var i := depth;
      while i > to
        invariant (if depth > to then to else depth) <= i <= depth
        invariant out == events + Closes(depth - i)
        invariant Nested(out) && Depth(out) == i
        invariant Tags(out) == Tags(events) && Texts(out) == Texts(events)
        invariant TextDepths(out) == TextDepths(events)
      {
        Append(out, End);
        assert Closes(depth - i) + [End] == Closes(depth - i + 1);
        out := out + [End];
        i := i - 1;
      }
    }

    /** Resolves the first template of every leaf in `matches`, the leaves
        whose values the bracket pattern matches, in order, each against the
        values as they are at its turn; `env` is the process environment. */
    method PostProcess(matches: seq<Path>, env: map<string, string>)
      requires Valid()
      requires Template.FoundAll(values.leaves, matches)
      modifies values
      ensures Valid() && values.nodes == old(values.nodes)
      ensures values.leaves == Template.ResolveAll(old(values.leaves), matches, env)
    {
      ghost var before := values.leaves;
      for n := 0 to |matches|
        invariant Valid() && values.nodes == old(values.nodes)
        invariant forall j :: n <= j < |matches| ==> matches[j] in values.leaves && values.leaves[matches[j]] == before[matches[j]]
        invariant Template.ResolveAll(values.leaves, matches[n..], env) == Template.ResolveAll(before, matches, env)
      {
        var p := matches[n];
        var replaced := ResolveTemplate(values.leaves[p], values.leaves, env);
        Template.ResolveAllStep(values.leaves, matches, n, env);
        PendingUnchanged(before, values.leaves, matches, n, replaced);
        values.SetValue(p, replaced);
      }
    }

    /** The value of a leaf matching the bracket pattern after its first
        template is resolved against `leaves` and the environment `env`. */
    static method ResolveTemplate(value: string, leaves: map<Path, string>, env: map<string, string>) returns (replaced: string)
      requires Template.Match(value).Some?
      ensures replaced == Template.ResolveLeaf(value, leaves, env)
    {
      var t := Template.Parse(value).value;
      var substitute := "";
      if |t.source| >= 1 && t.source[0] == '$' {
        var name := t.source[1..];
        if name in env {
          substitute := env[name];
        } else {
          substitute := t.default;
        }
      } else {
        substitute := Access.ValueAsString(leaves, t.source, t.default);
      }
      replaced := Template.ReplaceAll(value, t.found, substitute);
    }
  }
}

=== FILE: events.dfy ===
/** The node builder that writing drives, modelled as the list of events it
    receives: open a tag, add a text node, close the innermost open tag. */
module NodeEvents {

  datatype Event = Begin(tag: string) | Text(text: string) | End

  /** The number of Begin events. */
  function Begins(e: seq<Event>): nat {
    if e == [] then 0 else Begins(e[..|e| - 1]) + (if e[|e| - 1].Begin? then 1 else 0)
  }

  /** The number of End events. */
  function Ends(e: seq<Event>): nat {
    if e == [] then 0 else Ends(e[..|e| - 1]) + (if e[|e| - 1].End? then 1 else 0)
  }

  /** The number of tags left open after the events. */
  function Depth(e: seq<Event>): int {
    Begins(e) - Ends(e)
  }

  /** The events nest: no End closes a tag that is not open, and every text
      is added inside an open tag. */
  ghost predicate Nested(e: seq<Event>) {
    e == [] ||
    (var init := e[..|e| - 1];
     && Nested(init)
     && Depth(e) >= 0
     && (e[|e| - 1].Text? ==> Depth(init) >= 1))
  }

  /** The tags of the Begin events, in order. */
  function Tags(e: seq<Event>): seq<string> {
    if e == [] then []
    else Tags(e[..|e| - 1]) + (if e[|e| - 1].Begin? then [e[|e| - 1].tag] else [])
  }

  /** The texts of the Text events, in order. */
  function Texts(e: seq<Event>): seq<string> {
    if e == [] then []
    else Texts(e[..|e| - 1]) + (if e[|e| - 1].Text? then [e[|e| - 1].text] else [])
  }

  /** For each Text event, in order, the number of tags open when it is
      added. */
  function TextDepths(e: seq<Event>): seq<int> {
    if e == [] then []
    else TextDepths(e[..|e| - 1]) + (if e[|e| - 1].Text? then [Depth(e[..|e| - 1])] else [])
  }

  /** `n` End events. */
  function Closes(n: nat): seq<Event> {
    seq(n, _ => End)
  }

  /** Every text is added right after the Begin of its own tag. */
  ghost predicate TextsOpened(e: seq<Event>) {
    forall k :: 0 <= k < |e| && e[k].Text? ==> k >= 1 && e[k - 1].Begin?
  }

  /** Closing tags keeps every text right after its own Begin. */
  lemma ClosedStep(e: seq<Event>, n: nat)
    requires TextsOpened(e)
    ensures TextsOpened(e + Closes(n))
  {
    var o := e + Closes(n);
    forall k | 0 <= k < |o| && o[k].Text? ensures k >= 1 && o[k - 1].Begin? {
      if k < |e| {
        assert o[k] == e[k];
        assert o[k - 1] == e[k - 1];
      }
    }
  }

  /** Closing tags and then opening one that holds a text keeps every text
      right after its own Begin. */
  lemma OpenedStep(e: seq<Event>, n: nat, tag: string, v: string)
    requires TextsOpened(e)
    ensures TextsOpened(e + Closes(n) + [Begin(tag), Text(v)])
  {
    var c := e + Closes(n);
    ClosedStep(e, n);
    var o := c + [Begin(tag), Text(v)];
    forall k | 0 <= k < |o| && o[k].Text? ensures k >= 1 && o[k - 1].Begin? {
      if k < |c| {
        assert o[k] == c[k];
        assert o[k - 1] == c[k - 1];
      } else if k > |c| {
        assert o[k - 1] == Begin(tag);
      }
    }
  }

  /** Appending one event: how each measure changes. */
  lemma Append(e: seq<Event>, x: Event)
    ensures (e + [x])[..|e|] == e
    ensures Begins(e + [x]) == Begins(e) + (if x.Begin? then 1 else 0)
    ensures Ends(e + [x]) == Ends(e) + (if x.End? then 1 else 0)
    ensures Tags(e + [x]) == Tags(e) + (if x.Begin? then [x.tag] else [])
    ensures Texts(e + [x]) == Texts(e) + (if x.Text? then [x.text] else [])
    ensures TextDepths(e + [x]) == TextDepths(e) + (if x.Text? then [Depth(e)] else [])
    ensures Nested(e + [x]) <==> Nested(e) && Depth(e + [x]) >= 0 && (x.Text? ==> Depth(e) >= 1)
  {
    assert (e + [x])[..|e|] == e;
  }

  /** In nested events every prefix has closed at most as many tags as it
      opened. */
  lemma {:induction false} NestedPrefixes(e: seq<Event>, k: nat)
    requires Nested(e) && k <= |e|
    ensures Nested(e[..k]) && Ends(e[..k]) <= Begins(e[..k])
    decreases |e|
  {
    if k < |e| {
      assert e[..|e| - 1][..k] == e[..k];
      NestedPrefixes(e[..|e| - 1], k);
    } else {
      assert e[..k] == e;
    }
  }
}

=== FILE: outcomes.dfy ===
/** Optional values, results and the configuration's error kinds. */
module Outcomes {

  datatype Option<+T> = None | Some(value: T)

  datatype Result<+R, +E> = Success(value: R) | Failure(error: E)

  /** The configuration's error for a lookup that finds no value: it names
      the full path. */
  datatype EtcError = InvalidPath(path: string)
}

=== FILE: paths.dfy ===
/** Path addressing of configuration nodes: the user's slash-separated path
    text becomes a rooted sequence of lower-case segments, and a segment
    sequence can be rendered back as slash-separated text. */
module Paths {

  /** A node path: the keys from the tree's root down to the node. */
  type Path = seq<string>

  /** The key of every configuration's root node. */
  const Root: string := "etc"

  // ----- Characters and lower-casing -----

  /** Lower-cases an ASCII letter and leaves every other character alone. */
  function LowerChar(c: char): (d: char)
    ensures !('A' <= d <= 'Z')
    ensures d == '/' <==> c == '/'
    ensures c == '\n' ==> d == '\n'
  {
    if 'A' <= c <= 'Z' then (c as int + 32) as char else c
  }

  /** No upper-case ASCII letter occurs in `s`. */
  predicate IsLower(s: string) {
    forall i :: 0 <= i < |s| ==> !('A' <= s[i] <= 'Z')
  }

  /** Lower-cases every letter of `s`, character by character. */
  function Lower(s: string): (r: string)
    ensures |r| == |s| && IsLower(r)
    ensures forall i :: 0 <= i < |s| ==> r[i] == LowerChar(s[i])
  {
    seq(|s|, i requires 0 <= i < |s| => LowerChar(s[i]))
  }

  lemma LowerOfLower(s: string)
    requires IsLower(s)
    ensures Lower(s) == s
  {
  }

  /** A segment that a normalised path can hold: non-empty, free of the
      separator, and lower-case. */
  predicate ValidSegment(s: string) {
    s != "" && '/' !in s && IsLower(s)
  }

  /** Every segment of `p` is valid. */
  predicate ValidPath(p: Path) {
    forall k :: 0 <= k < |p| ==> ValidSegment(p[k])
  }

  // ----- Splitting and joining on '/' -----

  /** The index of the first '/' in `s`, or `|s|` when there is none. */
  function SlashIndex(s: string): (i: nat)
    ensures i <= |s|
    ensures forall j :: 0 <= j < i ==> s[j] != '/'
    ensures i < |s| ==> s[i] == '/'
  {
    if s == [] || s[0] == '/' then 0 else 1 + SlashIndex(s[1..])
  }

  /** Splits `s` at every '/', keeping empty parts, as Go's `strings.Split`
      does: there is always at least one part and no part holds a '/'. */
  function SplitSlash(s: string): (parts: seq<string>)
    ensures |parts| >= 1
    ensures forall k :: 0 <= k < |parts| ==> '/' !in parts[k]
    decreases |s|
  {
    var i := SlashIndex(s);
    if i == |s| then [s] else [s[..i]] + SplitSlash(s[i + 1..])
  }

  /** Joins `parts` with '/' between neighbours, as Go's `strings.Join`. */
  function JoinSlash(parts: seq<string>): string {
    if parts == [] then ""
    else if |parts| == 1 then parts[0]
    else parts[0] + "/" + JoinSlash(parts[1..])
  }

  /** The mapper that normalisation hands to the splitter: empty parts are
      dropped and every other part is lower-cased. */
  function Clean(parts: seq<string>): (r: seq<string>)
    ensures |r| <= |parts|
    ensures forall k :: 0 <= k < |r| ==> r[k] != "" && IsLower(r[k])
    ensures (forall k :: 0 <= k < |parts| ==> '/' !in parts[k]) ==> ValidPath(r)
  {
    if parts == [] then []
    else (if parts[0] == "" then [] else [Lower(parts[0])]) + Clean(parts[1..])
  }

  // ----- makeFullPath and pathToString -----

  /** The segments that a path text addresses below the root. */
  function Parts(path: string): (r: Path)
    ensures ValidPath(r)
  {
    Clean(SplitSlash(path))
  }

  /** The full node path for a user path: the root key followed by the
      non-empty, lower-cased parts of the text between slashes. */
  function MakeFullPath(path: string): (r: Path)
    ensures |r| >= 1 && r[0] == Root
    ensures forall k :: 1 <= k < |r| ==> r[k] != "" && IsLower(r[k]) && '/' !in r[k]
    ensures ValidPath(r)
  {
    [Root] + Parts(path)
  }

  /** A path in file-system notation: a leading '/' and '/' between segments. */
  function PathToString(path: Path): (s: string)
    ensures |s| >= 1 && s[0] == '/'
  {
    "/" + JoinSlash(path)
  }

  // ----- Lemmas about splitting -----

  /** The contract of SlashIndex determines it. */
  lemma SlashIndexIs(s: string, i: nat)
    requires i <= |s|
    requires forall j :: 0 <= j < i ==> s[j] != '/'
    requires i < |s| ==> s[i] == '/'
    ensures SlashIndex(s) == i
  {
  }

  lemma {:induction false} SplitNoSlash(s: string)
    requires '/' !in s
    ensures SplitSlash(s) == [s]
  {
    assert SlashIndex(s) == |s|;
  }

  /** Splitting at the first '/' of `s`. */
  lemma SplitAt(s: string, i: nat)
    requires i == SlashIndex(s) < |s|
    ensures SplitSlash(s) == [s[..i]] + SplitSlash(s[i + 1..])
  {
  }

  /** Splitting at a '/' splits the two sides independently. */
  lemma {:induction false} SplitConcat(a: string, b: string)
    ensures SplitSlash(a + "/" + b) == SplitSlash(a) + SplitSlash(b)
    decreases |a|
  {
    var i := SlashIndex(a);
    if i == |a| {
      SplitConcatFirst(a, b);
    } else {
      SplitConcatLater(a, b, i);
      SplitConcat(a[i + 1..], b);
      ConsAppend(SplitSlash(a + "/" + b), SplitSlash(a), a[..i],
                 SplitSlash(a[i + 1..] + "/" + b), SplitSlash(a[i + 1..]), SplitSlash(b));
    }
  }

  lemma ConsAppend(x: seq<string>, z: seq<string>, h: string, y: seq<string>, w: seq<string>, v: seq<string>)
    requires x == [h] + y && z == [h] + w && y == w + v
    ensures x == z + v
  {
  }

  /** When `a` holds no '/', the added one is the first. */
  lemma SplitConcatFirst(a: string, b: string)
    requires SlashIndex(a) == |a|
    ensures SplitSlash(a + "/" + b) == [a] + SplitSlash(b)
  {
    var s := a + "/" + b;
    assert forall j :: 0 <= j < |a| ==> s[j] == a[j];
    SlashIndexIs(s, |a|);
    assert s[..|a|] == a;
    assert s[|a| + 1..] == b;
    SplitAt(s, |a|);
  }

  /** When `a` holds a '/', its first one is the first of `a + "/" + b`. */
  lemma SplitConcatLater(a: string, b: string, i: nat)
    requires i == SlashIndex(a) < |a|
    ensures SplitSlash(a + "/" + b) == [a[..i]] + SplitSlash(a[i + 1..] + "/" + b)
    ensures SplitSlash(a) == [a[..i]] + SplitSlash(a[i + 1..])
  {
    var s := a + "/" + b;
    assert forall j :: 0 <= j <= i ==> s[j] == a[j];
    SlashIndexIs(s, i);
    assert s[..i] == a[..i];
    assert s[i + 1..] == a[i + 1..] + "/" + b;
    SplitAt(s, i);
    SplitAt(a, i);
  }

  /** Splitting undoes joining when no part holds a separator. */
  lemma {:induction false} SplitJoin(parts: seq<string>)
    requires |parts| >= 1
    requires forall k :: 0 <= k < |parts| ==> '/' !in parts[k]
    ensures SplitSlash(JoinSlash(parts)) == parts
    decreases |parts|
  {
    if |parts| == 1 {
      SplitNoSlash(parts[0]);
    } else {
      SplitConcat(parts[0], JoinSlash(parts[1..]));
      SplitNoSlash(parts[0]);
      SplitJoin(parts[1..]);
    }
  }

  lemma {:induction false} CleanConcat(a: seq<string>, b: seq<string>)
    ensures Clean(a + b) == Clean(a) + Clean(b)
    decreases |a|
  {
    if a == [] {
      assert a + b == b;
    } else {
      assert (a + b)[1..] == a[1..] + b;
      CleanConcat(a[1..], b);
    }
  }

  /** A single part is dropped when it is empty and lower-cased otherwise;
      with CleanConcat this keeps every non-empty part, in order. */
  lemma CleanOne(x: string)
    ensures Clean([x]) == if x == "" then [] else [Lower(x)]
  {
    assert [x][1..] == [];
  }

  /** Cleaning a sequence of valid segments changes nothing. */
  lemma {:induction false} CleanValid(parts: seq<string>)
    requires ValidPath(parts)
    ensures Clean(parts) == parts
    decreases |parts|
  {
    if parts != [] {
      LowerOfLower(parts[0]);
      CleanValid(parts[1..]);
    }
  }

  // ----- Normalisation properties -----

  /** An empty segment between two slashes is ignored. */
  lemma DoubleSlashIgnored(a: string, b: string)
    ensures MakeFullPath(a + "//" + b) == MakeFullPath(a + "/" + b)
  {
    assert a + "//" + b == a + "/" + ("" + "/" + b);
    SplitConcat(a, "" + "/" + b);
    SplitConcat("", b);
    SplitConcat(a, b);
    CleanConcat(SplitSlash(a), SplitSlash("" + "/" + b));
    CleanConcat([""], SplitSlash(b));
    CleanConcat(SplitSlash(a), SplitSlash(b));
  }

  /** A leading slash is ignored. */
  lemma LeadingSlashIgnored(s: string)
    ensures MakeFullPath("/" + s) == MakeFullPath(s)
  {
    assert "/" + s == "" + "/" + s;
    SplitConcat("", s);
    CleanConcat([""], SplitSlash(s));
  }

  /** A trailing slash is ignored. */
  lemma TrailingSlashIgnored(s: string)
    ensures MakeFullPath(s + "/") == MakeFullPath(s)
  {
    assert s + "/" == s + "/" + "";
    SplitConcat(s, "");
    CleanConcat(SplitSlash(s), [""]);
    assert SplitSlash(s) + [""] == SplitSlash(s + "/");
  }

  /** Lower-casing commutes with splitting, because '/' is not a letter. */
  lemma {:induction false} SplitLower(s: string)
    ensures |SplitSlash(Lower(s))| == |SplitSlash(s)|
    ensures forall k :: 0 <= k < |SplitSlash(s)| ==> SplitSlash(Lower(s))[k] == Lower(SplitSlash(s)[k])
    decreases |s|
  {
    var i := SlashIndex(s);
    var l := Lower(s);
    SlashIndexIs(l, i);
    if i < |s| {
      var rest := SplitSlash(s[i + 1..]);
      assert SplitSlash(s) == [s[..i]] + rest;
      assert l[..i] == Lower(s[..i]);
      assert l[i + 1..] == Lower(s[i + 1..]);
      SplitLower(s[i + 1..]);
      assert SplitSlash(l) == [Lower(s[..i])] + SplitSlash(Lower(s[i + 1..]));
    } else {
      assert SplitSlash(s) == [s];
      assert SplitSlash(l) == [l];
    }
  }

  lemma {:induction false} CleanLower(a: seq<string>, b: seq<string>)
    requires |a| == |b|
    requires forall k :: 0 <= k < |a| ==> b[k] == Lower(a[k])
    ensures Clean(b) == Clean(a)
    decreases |a|
  {
    if a != [] {
      assert b[0] == "" <==> a[0] == "";
      LowerOfLower(Lower(a[0]));
      CleanLower(a[1..], b[1..]);
    }
  }

  /** Letter case in the path text is ignored. */
  lemma CaseIgnored(s: string)
    ensures MakeFullPath(Lower(s)) == MakeFullPath(s)
  {
    SplitLower(s);
    CleanLower(SplitSlash(s), SplitSlash(Lower(s)));
  }

  /** Rendering a path of valid segments and normalising the text gives the
      path back below the root. */
  lemma PathToStringRoundTrip(p: Path)
    requires ValidPath(p)
    ensures MakeFullPath(PathToString(p)) == [Root] + p
  {
    LeadingSlashIgnored(JoinSlash(p));
    if p == [] {
      assert SplitSlash("") == [""];
    } else {
      SplitJoin(p);
      CleanValid(p);
    }
  }

  /** A non-empty path of valid segments is determined by its joined text. */
  lemma JoinInjective(p: Path, q: Path)
    requires |p| >= 1 && |q| >= 1 && ValidPath(p) && ValidPath(q)
    requires JoinSlash(p) == JoinSlash(q)
    ensures p == q
  {
    SplitJoin(p);
    SplitJoin(q);
  }

  /** Appending a sub-path below a path appends its parts. */
  lemma FullPathConcat(path: string, sub: string)
    ensures MakeFullPath(path + "/" + sub) == MakeFullPath(path) + Parts(sub)
  {
    SplitConcat(path, sub);
    CleanConcat(SplitSlash(path), SplitSlash(sub));
  }

  /** The full path of "a/b". */
  lemma FullPathAB()
    ensures MakeFullPath("a/b") == [Root, "a", "b"]
  {
    assert "a/b" == "a" + "/" + "b";
    SplitConcat("a", "b");
    SplitNoSlash("a");
    SplitNoSlash("b");
    CleanValid(["a", "b"]);
  }

  lemma LowerAB()
    ensures MakeFullPath("A/b") == MakeFullPath("a/b")
  {
    CaseIgnored("A/b");
    assert Lower("A/b") == "a/b";
  }

  lemma LeadingAB()
    ensures MakeFullPath("/a/b") == MakeFullPath("a/b")
  {
    assert "/a/b" == "/" + "a/b";
    LeadingSlashIgnored("a/b");
  }

  /** "A//b/" loses its empty segment and its trailing slash. */
  lemma SlashesAB()
    ensures MakeFullPath("A//b/") == MakeFullPath("A/b")
  {
    assert "A//b/" == "A" + "//" + "b/";
    DoubleSlashIgnored("A", "b/");
    assert "A" + "/" + "b/" == "A/b" + "/";
    TrailingSlashIgnored("A/b");
  }

  /** Three spellings of the same node: an empty segment, a trailing slash,
      upper case and a leading slash are all ignored. */
  lemma SameNode()
    ensures MakeFullPath("A//b/") == MakeFullPath("/a/b") == MakeFullPath("a/b") == [Root, "a", "b"]
  {
    SlashesAB();
    LowerAB();
    LeadingAB();
    FullPathAB();
  }
}

=== FILE: template.dfy ===
/** Template substitution in leaf values. A leaf matching the bracket
    pattern has its first match resolved: the text inside the brackets is
    split at the first `||` into a source and a default; a source starting
    with `$` names an environment variable, any other source a
    configuration path; every occurrence of the matched text in the leaf is
    then replaced by the resolved text.

    The pattern `\[.+(||.+)\]` contains an alternation of two empty
    branches and `.+`, so it accepts exactly what `\[.+\]` accepts: a '['
    and a later ']' on the same line with at least one character between.
    The regular-expression engine reports the leftmost such '[' and, since
    `.+` is greedy, the last ']' of that line. */
module Template {
  import opened Paths
  import opened Outcomes
  import Access

  // ----- The bracket matcher -----

  /** `s[i..j+1]` is a match of the pattern: '[' at i, ']' at j, at least one
      character between them and no newline from i to j. */
  predicate Spans(s: string, i: int, j: int) {
    0 <= i && i + 2 <= j < |s| && s[i] == '[' && s[j] == ']' && forall k :: i < k < j ==> s[k] != '\n'
  }

  /** The index of the first newline at or after `from`, or `|s|`. */
  function LineEnd(s: string, from: nat): (e: nat)
    requires from <= |s|
    ensures from <= e <= |s|
    ensures forall k :: from <= k < e ==> s[k] != '\n'
    ensures e < |s| ==> s[e] == '\n'
    decreases |s| - from
  {
    if from == |s| || s[from] == '\n' then from else LineEnd(s, from + 1)
  }

  /** The index of the last ']' in `s[lo..hi]`, if any. */
  function LastClose(s: string, lo: nat, hi: nat): (r: Option<nat>)
    requires hi <= |s|
    ensures r.Some? ==> lo <= r.value < hi && s[r.value] == ']'
    ensures r.Some? ==> forall k :: r.value < k < hi ==> s[k] != ']'
    ensures r.None? ==> forall k :: lo <= k < hi ==> s[k] != ']'
    decreases hi
  {
    if hi <= lo then None
    else if s[hi - 1] == ']' then Some(hi - 1)
    else LastClose(s, lo, hi - 1)
  }

  /** The end of the greedy match that starts at `i`, if one starts there. */
  function CloseOf(s: string, i: nat): (r: Option<nat>)
    requires i < |s|
    ensures r.Some? ==> Spans(s, i, r.value)
    ensures r.Some? ==> forall k :: r.value < k < |s| ==> !Spans(s, i, k)
    ensures r.None? ==> forall k :: !Spans(s, i, k)
  {
    if s[i] != '[' then None
    else
      var e := LineEnd(s, i + 1);
      var r := LastClose(s, i + 2, e);
      assert forall k :: Spans(s, i, k) ==> k < e;
      r
  }

  /** The leftmost greedy match whose '[' is at or after `i`. */
  function MatchFrom(s: string, i: nat): (r: Option<(nat, nat)>)
    requires i <= |s|
    ensures r.Some? ==> i <= r.value.0 && Spans(s, r.value.0, r.value.1)
    ensures r.Some? ==> forall k :: r.value.1 < k < |s| ==> !Spans(s, r.value.0, k)
    ensures r.Some? ==> forall a, b :: i <= a < r.value.0 ==> !Spans(s, a, b)
    ensures r.None? ==> forall a, b :: i <= a ==> !Spans(s, a, b)
    decreases |s| - i
  {
    if i == |s| then None
    else
      match CloseOf(s, i)
      case Some(j) => Some((i, j))
      case None => MatchFrom(s, i + 1)
  }

  /** The span the pattern finds in `s`, as (index of '[', index of ']'). */
  function Match(s: string): (r: Option<(nat, nat)>)
    ensures r.Some? ==> Spans(s, r.value.0, r.value.1)
    ensures r.Some? ==> forall k :: r.value.1 < k < |s| ==> !Spans(s, r.value.0, k)
    ensures r.Some? ==> forall a, b :: a < r.value.0 ==> !Spans(s, a, b)
    ensures r.None? ==> forall a, b :: !Spans(s, a, b)
  {
    MatchFrom(s, 0)
  }

  // ----- Splitting the bracket's content at the first "||" -----

  /** The text of a match: at least three characters, bracketed, on one line. */
  lemma SpanText(s: string, i: int, j: int)
    requires Spans(s, i, j)
    ensures var t := s[i..j + 1];
      |t| >= 3 && t[0] == '[' && t[|t| - 1] == ']' && '\n' !in t
  {
    var t := s[i..j + 1];
    forall m | 0 <= m < |t| ensures t[m] != '\n' {
      assert t[m] == s[i + m];
    }
  }

  /** A "||" starts at index k of s. */
  predicate SepAt(s: string, k: int) {
    0 <= k && k + 2 <= |s| && s[k] == '|' && s[k + 1] == '|'
  }

  /** No "||" occurs in s. */
  ghost predicate NoSep(s: string) {
    forall k :: !SepAt(s, k)
  }

  /** No "||" starts in s before index n. */
  ghost predicate NoSepBefore(s: string, n: int) {
    forall k :: 0 <= k < n ==> !SepAt(s, k)
  }

  /** The first "||" at or after `from`. */
  function SepFrom(s: string, from: nat): (r: Option<nat>)
    requires from <= |s|
    ensures r.Some? ==> from <= r.value && SepAt(s, r.value)
    ensures r.Some? ==> forall k :: from <= k < r.value ==> !SepAt(s, k)
    ensures r.None? ==> forall k :: from <= k ==> !SepAt(s, k)
    decreases |s| - from
  {
    if from + 2 > |s| then None
    else if s[from] == '|' && s[from + 1] == '|' then Some(from)
    else SepFrom(s, from + 1)
  }

  /** A parsed template: the matched text, its source and its default. */
  datatype Template = Template(found: string, source: string, default: string)

  /** Splits a matched text as `strings.SplitN(inner, "||", 2)` splits the
      bracket's content `inner`: without a "||" the whole content is the
      source and the matched text itself, brackets included, is the default. */
  function SplitTemplate(found: string): (u: Template)
    requires |found| >= 2
    ensures u.found == found
    ensures var inner := found[1..|found| - 1];
      NoSep(inner) ==> u.source == inner && u.default == found
    ensures var inner := found[1..|found| - 1];
      !NoSep(inner) ==>
        found == [found[0]] + u.source + "||" + u.default + [found[|found| - 1]] &&
        NoSepBefore(inner, |u.source|)
  {
    var inner := found[1..|found| - 1];
    match SepFrom(inner, 0)
    case None => Template(found, inner, found)
    case Some(k) =>
      SepSplit(found, k);
      Template(found, inner[..k], inner[k + 2..])
  }

  /** Cutting the bracket's content at its first "||". */
  lemma SepSplit(found: string, k: nat)
    requires |found| >= 2
    requires SepFrom(found[1..|found| - 1], 0) == Some(k)
    ensures var inner := found[1..|found| - 1];
      && k + 2 <= |inner|
      && found == [found[0]] + inner[..k] + "||" + inner[k + 2..] + [found[|found| - 1]]
      && NoSepBefore(inner, k)
  {
    var inner := found[1..|found| - 1];
    assert found == [found[0]] + inner + [found[|found| - 1]];
    assert inner == inner[..k] + "||" + inner[k + 2..];
  }

  /** A third '|' belongs to the default: "[a|||b]" is cut into the source
      "a" and the default "|b". */
  lemma SplitExample()
    ensures SplitTemplate("[a|||b]") == Template("[a|||b]", "a", "|b")
  {
    var inner := "[a|||b]"[1..6];
    assert inner == "a|||b";
    assert !SepAt(inner, 0) && SepAt(inner, 1);
    assert SepFrom(inner, 1) == Some(1);
    assert SepFrom(inner, 0) == Some(1);
    assert inner[..1] == "a" && inner[3..] == "|b";
  }

  /** The first template in a leaf value: the span the pattern finds, split
      into source and default. */
  function Parse(value: string): (t: Option<Template>)
    ensures t.None? <==> Match(value).None?
    ensures t.Some? ==>
      var (i, j) := Match(value).value;
      t.value.found == value[i..j + 1] && |t.value.found| >= 3 &&
      t.value.found[0] == '[' && t.value.found[|t.value.found| - 1] == ']' &&
      '\n' !in t.value.found
    ensures t.Some? ==> t.value == SplitTemplate(t.value.found)
  {
    match Match(value)
    case None => None
    case Some((i, j)) =>
      SpanText(value, i, j);
      Some(SplitTemplate(value[i..j + 1]))
  }

  // ----- Resolving the source -----

  /** The text that replaces the template: an environment variable's value
      for a `$NAME` source, otherwise the string at the source path; the
      default when either is missing. */
  function Substitute(t: Template, leaves: map<Path, string>, env: map<string, string>): (r: string)
    ensures |t.source| >= 1 && t.source[0] == '$' && t.source[1..] in env ==> r == env[t.source[1..]]
    ensures |t.source| >= 1 && t.source[0] == '$' && t.source[1..] !in env ==> r == t.default
    ensures (|t.source| == 0 || t.source[0] != '$') ==> r == Access.ValueAsString(leaves, t.source, t.default)
  {
    if |t.source| >= 1 && t.source[0] == '$' then
      var name := t.source[1..];
      if name in env then env[name] else t.default
    else
      Access.ValueAsString(leaves, t.source, t.default)
  }

  // ----- Replacing every occurrence -----

  /** `pat` occurs in `s` at index k. */
  predicate OccursAt(s: string, pat: string, k: int) {
    0 <= k && k + |pat| <= |s| && s[k..k + |pat|] == pat
  }

  /** Go's `strings.Replace(s, pat, sub, -1)` for a non-empty `pat`: scanning
      from the left, every occurrence not overlapping an earlier replaced
      one is replaced. */
  function ReplaceAll(s: string, pat: string, sub: string): string
    requires |pat| >= 1
    decreases |s|
  {
    if |s| < |pat| then s
    else if s[..|pat|] == pat then sub + ReplaceAll(s[|pat|..], pat, sub)
    else [s[0]] + ReplaceAll(s[1..], pat, sub)
  }

  lemma OccursShift(s: string, pat: string, k: int)
    requires |s| >= 1
    ensures OccursAt(s[1..], pat, k) ==> OccursAt(s, pat, k + 1)
  {
    if 0 <= k && k + |pat| <= |s| - 1 {
      var a, b := s[k + 1..k + 1 + |pat|], s[1..][k..k + |pat|];
      assert |a| == |b| && forall m :: 0 <= m < |a| ==> a[m] == b[m];
      assert a == b;
    }
  }

  /** A leaf in which the matched text does not occur is left alone. */
  lemma {:induction false} ReplaceAbsent(s: string, pat: string, sub: string)
    requires |pat| >= 1
    requires forall k :: !OccursAt(s, pat, k)
    ensures ReplaceAll(s, pat, sub) == s
    decreases |s|
  {
    if |s| >= |pat| {
      assert !OccursAt(s, pat, 0);
      forall k ensures !OccursAt(s[1..], pat, k) {
        OccursShift(s, pat, k);
      }
      ReplaceAbsent(s[1..], pat, sub);
      assert s == [s[0]] + s[1..];
    }
  }

  /** Replacing the matched text by itself changes nothing. */
  lemma {:induction false} ReplaceBySelf(s: string, pat: string)
    requires |pat| >= 1
    ensures ReplaceAll(s, pat, pat) == s
    decreases |s|
  {
    if |s| >= |pat| {
      if s[..|pat|] == pat {
        ReplaceBySelf(s[|pat|..], pat);
        assert s == s[..|pat|] + s[|pat|..];
      } else {
        ReplaceBySelf(s[1..], pat);
        assert s == [s[0]] + s[1..];
      }
    }
  }

  /** If every occurrence of the matched text's first character in `s` starts a
      copy, the same holds for the suffix of `s` from `d` on. */
  lemma StartsCopySuffix(s: string, pat: string, d: nat)
    requires |pat| >= 1 && d <= |s|
    requires forall k :: 0 <= k < |s| && s[k] == pat[0] ==> OccursAt(s, pat, k)
    ensures forall k :: 0 <= k < |s[d..]| && s[d..][k] == pat[0] ==> OccursAt(s[d..], pat, k)
  {
    var rest := s[d..];
    forall k | 0 <= k < |rest| && rest[k] == pat[0] ensures OccursAt(rest, pat, k) {
      assert OccursAt(s, pat, d + k);
      assert rest[k..k + |pat|] == s[d + k..d + k + |pat|];
    }
  }

  /** Under the same conditions as ReplaceClears, the replacement holds no
      occurrence of the matched text's first character. */
  lemma {:induction false} ReplaceDropsFirst(s: string, pat: string, sub: string)
    requires |pat| >= 1
    requires pat[0] !in sub
    requires forall k :: 0 <= k < |s| && s[k] == pat[0] ==> OccursAt(s, pat, k)
    ensures pat[0] !in ReplaceAll(s, pat, sub)
    decreases |s|
  {
    if |s| < |pat| {
      assert forall k :: 0 <= k < |s| ==> s[k] != pat[0];
    } else if s[..|pat|] == pat {
      StartsCopySuffix(s, pat, |pat|);
      ReplaceDropsFirst(s[|pat|..], pat, sub);
    } else {
      assert !OccursAt(s, pat, 0);
      StartsCopySuffix(s, pat, 1);
      ReplaceDropsFirst(s[1..], pat, sub);
    }
  }

  /** When every occurrence of the matched text's first character starts a
      copy of it, and the substitute does not hold that character, no copy
      is left after the replacement: the character itself is gone. */
  lemma {:induction false} ReplaceClears(s: string, pat: string, sub: string)
    requires |pat| >= 1
    requires pat[0] !in sub
    requires forall k :: 0 <= k < |s| && s[k] == pat[0] ==> OccursAt(s, pat, k)
    ensures pat[0] !in ReplaceAll(s, pat, sub)
    ensures forall k :: !OccursAt(ReplaceAll(s, pat, sub), pat, k)
  {
    var r := ReplaceAll(s, pat, sub);
    ReplaceDropsFirst(s, pat, sub);
    forall k ensures !OccursAt(r, pat, k) {
      if 0 <= k && k + |pat| <= |r| {
        assert r[k..k + |pat|][0] == r[k];
      }
    }
  }

  // ----- One leaf and the whole pass -----

  /** A leaf after its first template has been resolved. */
  function ResolveLeaf(value: string, leaves: map<Path, string>, env: map<string, string>): (r: string)
    ensures Match(value).None? ==> r == value
  {
    match Parse(value)
    case None => value
    case Some(t) => ReplaceAll(value, t.found, Substitute(t, leaves, env))
  }

  /** `matches` lists, each once, exactly the nodes whose value the pattern
      matches. */
  ghost predicate FoundAll(leaves: map<Path, string>, matches: seq<Path>) {
    && (forall j :: 0 <= j < |matches| ==> matches[j] in leaves && Match(leaves[matches[j]]).Some?)
    && (forall i, j :: 0 <= i < j < |matches| ==> matches[i] != matches[j])
    && (forall p :: p in leaves && Match(leaves[p]).Some? ==> p in matches)
  }

  /** The values after resolving the leaves at `matches` one after the
      other, each against the values as they are at its turn. */
  function ResolveAll(leaves: map<Path, string>, matches: seq<Path>, env: map<string, string>): (r: map<Path, string>)
    requires forall m :: m in matches ==> m in leaves
    ensures r.Keys == leaves.Keys
    decreases |matches|
  {
    if matches == [] then leaves
    else
      var p := matches[0];
      ResolveAll(leaves[p := ResolveLeaf(leaves[p], leaves, env)], matches[1..], env)
  }

  /** Resolving from the n-th match on: the n-th leaf first, then the rest. */
  lemma ResolveAllStep(leaves: map<Path, string>, matches: seq<Path>, n: nat, env: map<string, string>)
    requires n < |matches| && forall j :: n <= j < |matches| ==> matches[j] in leaves
    ensures var p := matches[n];
      ResolveAll(leaves, matches[n..], env) == ResolveAll(leaves[p := ResolveLeaf(leaves[p], leaves, env)], matches[n + 1..], env)
  {
    assert matches[n..][1..] == matches[n + 1..];
  }

  /** Leaves that are not among the matches keep their values. */
  lemma {:induction false} ResolveAllKeepsOthers(leaves: map<Path, string>, matches: seq<Path>, env: map<string, string>, p: Path)
    requires forall m :: m in matches ==> m in leaves
    requires p in leaves && p !in matches
    ensures ResolveAll(leaves, matches, env)[p] == leaves[p]
    decreases |matches|
  {
    if matches != [] {
      var q := matches[0];
      ResolveAllKeepsOthers(leaves[q := ResolveLeaf(leaves[q], leaves, env)], matches[1..], env, p);
    }
  }

  /** The first match is resolved against the values as they were before
      the pass, and later steps leave it alone. */
  lemma ResolveAllFirst(leaves: map<Path, string>, matches: seq<Path>, env: map<string, string>)
    requires forall m :: m in matches ==> m in leaves
    requires |matches| >= 1 && matches[0] !in matches[1..]
    ensures ResolveAll(leaves, matches, env)[matches[0]] == ResolveLeaf(leaves[matches[0]], leaves, env)
  {
    var p := matches[0];
    ResolveAllKeepsOthers(leaves[p := ResolveLeaf(leaves[p], leaves, env)], matches[1..], env, p);
  }

  /** The pass over `a + b` is the pass over `a` followed by the pass over
      `b` on the values it leaves. */
  lemma {:induction false} ResolveAllSplit(leaves: map<Path, string>, a: seq<Path>, b: seq<Path>, env: map<string, string>)
    requires forall m :: m in a + b ==> m in leaves
    ensures forall m :: m in b ==> m in ResolveAll(leaves, a, env)
    ensures ResolveAll(leaves, a + b, env) == ResolveAll(ResolveAll(leaves, a, env), b, env)
    decreases |a|
  {
    if a == [] {
      assert a + b == b;
    } else {
      var p := a[0];
      var next := leaves[p := ResolveLeaf(leaves[p], leaves, env)];
      assert (a + b)[1..] == a[1..] + b;
      assert forall m :: m in a[1..] + b ==> m in a + b;
      assert forall m :: m in a ==> m in a + b;
      ResolveAllSplit(next, a[1..], b, env);
    }
  }

  /** The n-th match is resolved against the values the first n matches
      leave, and later steps leave it alone. */
  lemma ResolveAllAt(leaves: map<Path, string>, matches: seq<Path>, env: map<string, string>, n: nat)
    requires forall m :: m in matches ==> m in leaves
    requires forall i, j :: 0 <= i < j < |matches| ==> matches[i] != matches[j]
    requires n < |matches|
    ensures forall m :: m in matches[..n] ==> m in leaves
    ensures ResolveAll(leaves, matches, env)[matches[n]] ==
      ResolveLeaf(leaves[matches[n]], ResolveAll(leaves, matches[..n], env), env)
  {
    var a, b := matches[..n], matches[n..];
    assert matches == a + b;
    assert forall m :: m in a ==> m in matches;
    ResolveAllSplit(leaves, a, b, env);
    var mid := ResolveAll(leaves, a, env);
    DistinctAt(matches, n);
    assert b[1..] == matches[n + 1..];
    ResolveAllFirst(mid, b, env);
    ResolveAllKeepsOthers(leaves, a, env, matches[n]);
  }

  /** In a list without repetitions, the n-th element occurs neither before
      nor after position n. */
  lemma DistinctAt(matches: seq<Path>, n: nat)
    requires forall i, j :: 0 <= i < j < |matches| ==> matches[i] != matches[j]
    requires n < |matches|
    ensures matches[n] !in matches[..n] && matches[n] !in matches[n + 1..]
  {
    var rest := matches[n + 1..];
    forall j | 0 <= j < |rest| ensures rest[j] != matches[n] {
      assert rest[j] == matches[n + 1 + j];
    }
  }

  /** A template without "||" whose source is an unset variable or a path
      holding no value resolves to its own text, so the leaf is left as it
      was. */
  lemma UnresolvedUnchanged(value: string, leaves: map<Path, string>, env: map<string, string>)
    requires Parse(value).Some?
    requires NoSep(Parse(value).value.found[1..|Parse(value).value.found| - 1])
    requires var t := Parse(value).value;
      if |t.source| >= 1 && t.source[0] == '$' then t.source[1..] !in env else MakeFullPath(t.source) !in leaves
    ensures ResolveLeaf(value, leaves, env) == value
  {
    var t := Parse(value).value;
    assert t.default == t.found;
    assert Substitute(t, leaves, env) == t.found;
    ReplaceBySelf(value, t.found);
  }

  /** The template the pattern finds in "[x]\n[[x]]". */
  lemma ParseExample()
    ensures Parse("[x]\n[[x]]") == Some(Template("[x]", "x", "[x]"))
  {
    var s := "[x]\n[[x]]";
    assert LineEnd(s, 3) == 3;
    assert LineEnd(s, 2) == 3 && LineEnd(s, 1) == 3;
    assert LastClose(s, 2, 3) == Some(2);
    assert CloseOf(s, 0) == Some(2);
    assert Match(s) == Some((0, 2));
    assert s[0..3] == "[x]";
    assert SepFrom("x", 0) == None;
    assert "[x]"[1..2] == "x";
  }

  /** Replacing "[x]" by "x" in "[x]\n[[x]]" leaves a new "[x]". */
  lemma ReplaceExample()
    ensures ReplaceAll("[x]\n[[x]]", "[x]", "x") == "x\n[x]"
  {
    var s := "[x]\n[[x]]";
    assert s[..3] == "[x]" && s[3..] == "\n[[x]]";
    assert "\n[[x]]"[..3] != "[x]" && "\n[[x]]"[1..] == "[[x]]";
    assert "[[x]]"[..3] != "[x]" && "[[x]]"[1..] == "[x]]";
    assert "[x]]"[..3] == "[x]" && "[x]]"[3..] == "]";
    assert ReplaceAll("]", "[x]", "x") == "]";
  }

  /** Resolution replaces the matched text, not every template: in the leaf
      "[x]\n[[x]]" with the node x holding "x", the first match is "[x]" and
      the result "x\n[x]" still holds a copy of it, and still matches. */
  lemma CopyMayRemain()
    ensures ResolveLeaf("[x]\n[[x]]", map[[Root, "x"] := "x"], map[]) == "x\n[x]"
    ensures OccursAt("x\n[x]", "[x]", 2) && Match("x\n[x]").Some?
  {
    ParseExample();
    SubstituteExample();
    ReplaceExample();
    MatchRemains();
  }

  /** "x\n[x]" holds "[x]" and matches the pattern. */
  lemma MatchRemains()
    ensures OccursAt("x\n[x]", "[x]", 2) && Match("x\n[x]").Some?
  {
    var r := "x\n[x]";
    assert r[2..5] == "[x]";
    assert Spans(r, 2, 4);
  }

  /** The source "x" reads the node x. */
  lemma SubstituteExample()
    ensures Substitute(Template("[x]", "x", "[x]"), map[[Root, "x"] := "x"], map[]) == "x"
  {
    SplitNoSlash("x");
    assert Lower("x") == "x";
    assert MakeFullPath("x") == [Root, "x"];
  }
}

=== FILE: tree.dfy ===
/** The key/value tree that a configuration owns, seen through the
    operations the configuration uses: navigate to a node, copy the whole
    tree or the subtree at a node, rename the root, set a node's value,
    create the nodes along a path, and visit every node depth first.

    A node is named by its path from the root. Every tree has one root
    node, every ancestor of a node is a node, and every node carries a
    string value; a node created without one holds the empty string. */
module KeyValueTree {
  import opened Paths

  /** The shape invariant of a tree whose root key is `root`. */
  ghost predicate WellFormed(root: string, nodes: set<Path>, leaves: map<Path, string>)
  {
    && ValidSegment(root)
    && [root] in nodes
    && (forall p :: p in nodes ==> |p| >= 1 && p[0] == root && ValidPath(p))
    && (forall p, k :: p in nodes && 1 <= k <= |p| ==> p[..k] in nodes)
    && (forall p :: p in leaves <==> p in nodes)
  }

  /** The nodes that creating `path` makes sure exist: its non-empty prefixes. */
  function Prefixes(path: Path): (r: set<Path>)
    ensures forall k :: 1 <= k <= |path| ==> path[..k] in r
    ensures forall q :: q in r ==> 1 <= |q| <= |path| && q == path[..|q|]
  {
    set k | 1 <= k <= |path| :: path[..k]
  }

  /** The values after the nodes along `path` are created: a node that
      exists keeps its value, a new one holds the empty string. */
  function Created(leaves: map<Path, string>, path: Path): (r: map<Path, string>)
    ensures forall q :: q in r <==> q in leaves || q in Prefixes(path)
    ensures forall q :: q in leaves ==> r[q] == leaves[q]
    ensures forall q :: q in r && q !in leaves ==> r[q] == ""
  {
    map q | q in leaves.Keys + Prefixes(path) :: if q in leaves then leaves[q] else ""
  }

  /** The nodes of the subtree at `at`, as a tree of their own whose root is
      `at`'s key: each path loses the part above `at`. */
  function SubtreeNodes(nodes: set<Path>, at: Path): set<Path>
    requires |at| >= 1
  {
    set p | p in nodes && at <= p :: p[|at| - 1..]
  }

  /** The values of the subtree at `at`, re-addressed as in SubtreeNodes. */
  function SubtreeLeaves(leaves: map<Path, string>, at: Path): map<Path, string>
    requires |at| >= 1
  {
    map q | q in SubtreeNodes(leaves.Keys, at) && at[..|at| - 1] + q in leaves :: leaves[at[..|at| - 1] + q]
  }

  /** The nodes after the root is renamed to `key`. */
  function RekeyNodes(nodes: set<Path>, key: string): set<Path>
  {
    set p | p in nodes && |p| >= 1 :: [key] + p[1..]
  }

  /** The values after the root `root` is renamed to `key`. */
  function RekeyLeaves(leaves: map<Path, string>, root: string, key: string): map<Path, string>
  {
    map q | q in RekeyNodes(leaves.Keys, key) && [root] + q[1..] in leaves :: leaves[[root] + q[1..]]
  }

  // ----- The tree operations keep the shape invariant -----

  lemma SubtreeWellFormed(root: string, nodes: set<Path>, leaves: map<Path, string>, at: Path)
    requires WellFormed(root, nodes, leaves)
    requires at in nodes
    ensures WellFormed(at[|at| - 1], SubtreeNodes(nodes, at), SubtreeLeaves(leaves, at))
  {
    var n := |at| - 1;
    var sub := SubtreeNodes(nodes, at);
    assert at[n..] == [at[n]];
    assert [at[n]] in sub;
    forall q | q in sub
      ensures |q| >= 1 && q[0] == at[n] && ValidPath(q)
      ensures forall k :: 1 <= k <= |q| ==> q[..k] in sub
      ensures q in SubtreeLeaves(leaves, at)
    {
      var p :| p in nodes && at <= p && q == p[n..];
      assert q[0] == p[n] == at[n];
      assert at[..n] + q == p;
      assert q in SubtreeNodes(leaves.Keys, at);
      forall k | 1 <= k <= |q| ensures q[..k] in sub {
        var pk := p[..n + k];
        assert pk in nodes;
        assert at <= pk;
        assert pk[n..] == q[..k];
      }
    }
    forall q | q in SubtreeLeaves(leaves, at) ensures q in sub {
      var p :| p in leaves && at <= p && q == p[n..];
    }
  }

  lemma RekeyWellFormed(root: string, nodes: set<Path>, leaves: map<Path, string>, key: string)
    requires WellFormed(root, nodes, leaves)
    requires ValidSegment(key)
    ensures WellFormed(key, RekeyNodes(nodes, key), RekeyLeaves(leaves, root, key))
  {
    var re := RekeyNodes(nodes, key);
    assert [key] + [root][1..] == [key];
    forall q | q in re
      ensures |q| >= 1 && q[0] == key && ValidPath(q)
      ensures forall k :: 1 <= k <= |q| ==> q[..k] in re
      ensures q in RekeyLeaves(leaves, root, key)
    {
      var p :| p in nodes && |p| >= 1 && q == [key] + p[1..];
      assert [root] + q[1..] == p;
      assert q in RekeyNodes(leaves.Keys, key);
      forall k | 1 <= k <= |q| ensures q[..k] in re {
        assert p[..k] in nodes;
        assert q[..k] == [key] + p[..k][1..];
      }
    }
    forall q | q in RekeyLeaves(leaves, root, key) ensures q in re {
      var p :| p in leaves && q == [key] + p[1..];
    }
  }

  lemma CreateWellFormed(root: string, nodes: set<Path>, leaves: map<Path, string>, path: Path, v: string)
    requires WellFormed(root, nodes, leaves)
    requires |path| >= 1 && path[0] == root && ValidPath(path)
    ensures WellFormed(root, nodes + Prefixes(path), Created(leaves, path)[path := v])
  {
    var all := nodes + Prefixes(path);
    assert path[..|path|] == path;
    forall q | q in Prefixes(path) ensures |q| >= 1 && q[0] == root && ValidPath(q) {
      assert q == path[..|q|];
      assert forall k :: 0 <= k < |q| ==> q[k] == path[k];
    }
    forall q, k | q in all && 1 <= k <= |q| ensures q[..k] in all {
      if q in Prefixes(path) {
        assert q[..k] == path[..k];
      }
    }
  }

  // ----- The tree as a mutable object -----

  class Tree {
    /** The key of the root node. */
    var root: string
    /** Every node, by path from the root. */
    var nodes: set<Path>
    /** The values the nodes carry. */
    var leaves: map<Path, string>

    ghost predicate Valid()
      reads this
    {
      WellFormed(root, nodes, leaves)
    }

    /** A tree holding only its root node, whose value is empty. */
    constructor (root: string)
      requires ValidSegment(root)
      ensures Valid()
      ensures this.root == root && nodes == {[root]} && leaves == map[[root] := ""]
    {
      assert [root][..1] == [root];
      this.root := root;
      nodes := {[root]};
      leaves := map[[root] := ""];
    }

    /** A tree with the given contents. */
    constructor Of(root: string, nodes: set<Path>, leaves: map<Path, string>)
      requires WellFormed(root, nodes, leaves)
      ensures Valid()
      ensures this.root == root && this.nodes == nodes && this.leaves == leaves
    {
      this.root := root;
      this.nodes := nodes;
      this.leaves := leaves;
    }

    /** A deep copy of the whole tree. */
    method Copy() returns (t: Tree)
      requires Valid()
      ensures fresh(t) && t.Valid()
      ensures t.root == root && t.nodes == nodes && t.leaves == leaves
    {
      t := new Tree.Of(root, nodes, leaves);
    }

    /** A deep copy of the subtree at the existing node `at`; the copy's
        root keeps `at`'s key. */
    method CopyAt(at: Path) returns (t: Tree)
      requires Valid() && at in nodes
      ensures fresh(t) && t.Valid()
      ensures t.root == at[|at| - 1]
      ensures t.nodes == SubtreeNodes(nodes, at) && t.leaves == SubtreeLeaves(leaves, at)
    {
      SubtreeWellFormed(root, nodes, leaves, at);
      t := new Tree.Of(at[|at| - 1], SubtreeNodes(nodes, at), SubtreeLeaves(leaves, at));
    }

    /** Renames the root node to `key`. */
    method SetRootKey(key: string)
      requires Valid() && ValidSegment(key)
      modifies this
      ensures Valid() && root == key
      ensures nodes == RekeyNodes(old(nodes), key)
      ensures leaves == RekeyLeaves(old(leaves), old(root), key)
    {
      RekeyWellFormed(root, nodes, leaves, key);
      nodes, leaves := RekeyNodes(nodes, key), RekeyLeaves(leaves, root, key);
      root := key;
    }

    /** Sets the value of the existing node `path`. */
    method SetValue(path: Path, v: string)
      requires Valid() && path in nodes
      modifies this
      ensures Valid() && root == old(root) && nodes == old(nodes)
      ensures leaves == old(leaves)[path := v]
    {
      leaves := leaves[path := v];
    }

    /** Creates every missing node along `path`, with the empty string as
        its value, and sets the value of the last one. */
    method CreateWithValue(path: Path, v: string)
      requires Valid()
      requires |path| >= 1 && path[0] == root && ValidPath(path)
      modifies this
      ensures Valid() && root == old(root)
      ensures nodes == old(nodes) + Prefixes(path)
      ensures leaves == Created(old(leaves), path)[path := v]
    {
      CreateWellFormed(root, nodes, leaves, path, v);
      nodes := nodes + Prefixes(path);
      leaves := Created(leaves, path)[path := v];
    }
  }

  // ----- Depth-first traversal -----

  /** One step of the depth-first traversal: a node's path and its value. */
  datatype Visit = Visit(path: Path, value: string)

  /** `visits` reports exactly the values of `leaves`: every step is a node
      with its value, and every node is reported. */
  ghost predicate Enumerates(visits: seq<Visit>, leaves: map<Path, string>)
  {
    && (forall j :: 0 <= j < |visits| ==> visits[j].path in leaves && leaves[visits[j].path] == visits[j].value)
    && (forall p :: p in leaves ==> exists j :: 0 <= j < |visits| && visits[j].path == p)
  }

  /** The depth discipline of a depth-first traversal from the root: every
      path is non-empty and at most one level deeper than the one before,
      the first step being at most at depth 1. */
  ghost predicate DepthFirst(visits: seq<Visit>)
  {
    forall j :: 0 <= j < |visits| ==>
      1 <= |visits[j].path| <= (if j == 0 then 0 else |visits[j - 1].path|) + 1
  }
}
